=== FILE: README.md ===
# Point-light shadow demo — a Dafny model of its rules

The program renders a textured room and a mesh lit by one point light,
with omnidirectional shadows. Each frame it renders the scene once into
all six faces of a depth cube map centred on the light: the depth shader's
geometry stage sends each triangle to every face, using one matrix per
face. It then renders the scene normally with that cube map bound, and
draws a skybox. Below the
OpenGL and GLFW plumbing there are a few small, sequential rules, and this
project models those rules:

- **Shadow target** (`ShadowFbo`): the table of six cube-map face matrices.
  It gives the face order +X, −X, +Y, −Y, +Z, −Z, the look direction and
  up vector of each face, and one 90° square projection for all faces. It
  also covers allocating one depth image per face, rebuilding the matrix
  vector after clearing it, and uploading the matrices to the depth shader.
- **Transform component** (`Transforms`, on top of `Vectors` and
  `Matrices`): position, scale and an inert rotation. `getModel` is built
  glm-style: identity, then translate, then scale. It uses column-major
  4×4 matrices over `real`.
- **Room** (`Room`, on top of `Gl`): the fixed 36-vertex interleaved
  array. Its wall range and floor/ceiling range are modelled. So is
  `loadTexture`, where the decoder's outcome is a parameter. So is the
  texture-unit assignment of `bindTextures`. GL calls become an abstract
  command log, and `Gl.Run` replays it on a machine that tracks the active
  texture unit and the texture bound to each (unit, target) pair. Each
  draw records the bindings it saw.
- **Camera** (`Camera`): the constructor defaults, `Move`, `Rotate` with
  its pitch clamp, and the view matrix. Turning yaw and pitch into
  front/right/up vectors is trigonometry. That step is a function
  parameter `orient`.
- **Main program** (`Input`, `Frame`):
  - the two debounced key toggles (SPACE for shadows, P for
    light-follows-camera);
  - the mouse callback's first-event rule and its offsets;
  - `processInput`;
  - the start-up state;
  - the light-follow rule;
  - the five render passes of a frame and the scene they draw;
  - the render loop's close check.

`glm::perspective` and `glm::lookAt` are not computed. A matrix is the
record of the arguments it was built from (`Views`), so equal arguments
give equal matrices.

The main program does not use the shadow-target class. It builds the same
six-face table inline, with a 1024×1024 cube map instead of the class's
2048. The model defines the table once, in `ShadowFbo.CubeFaceTransforms`,
with the size as a parameter. `ShadowFbo` uses it at 2048 and `Frame` uses
it at 1024. The face order and up vectors agree with the cube-map face
selection table (Table 8.19, section 8.13 of the OpenGL 4.6 Core Profile
specification). For every face, the face's up vector is the `t` axis and
`look × up` is the `s` axis.

A few details of the code that the model keeps as they are:

- `loadTexture` picks a pixel format only for 1, 3 or 4 channels. For any
  other count it still uploads the image and appends the texture, with
  the format left unassigned. It does not treat that count as a failure.
- `bindTextures` binds the shadow cube map to different units for
  different parts of the room. For the walls it uses unit 2, after two 2D
  textures. For floor and ceiling it uses unit 1, after one 2D
  texture. The third loaded texture goes to unit 0 for floor and ceiling.
- The shadow-target class allocates 2048×2048 faces, and the main
  program allocates 1024×1024 faces.
- At start-up the main program points the shading shader's
  `diffuseTexture` sampler at unit 0 and its `depthMap` sampler at unit 1
  (`Frame.App.samplers`). For floor and ceiling the cube map sits on unit
  1. For the walls, `bindTextures` puts the second 2D texture on unit 1
  and binds the cube map to unit 2, which neither start-up sampler names. A unit has one
  binding per target, though, and nothing in the room code unbinds unit
  1's cube-map target after the floor/ceiling step. So from the second
  textured room draw on, the walls also find the cube map on unit 1,
  unless something drawn in between rebinds it. The model assumes the mesh draw does not.

## Model

| member | source | states |
|---|---|---|
| ShadowFbo.CubeFaceTransforms | Shadows/shadowFBO.h:44-52 | six matrices; entry `i` looks from the light along the major axis of face `i` (order +X, −X, +Y, −Y, +Z, −Z), with that face's up vector, and all share one 90° projection of the given planes |
| ShadowFbo.FaceUpIsPerpendicular | Shadows/shadowFBO.h:47-52 | each face's up vector is orthogonal to its look direction |
| ShadowFbo.FaceRightIsSAxis | Shadows/shadowFBO.h:47-52 | `look × up` is the face's `s` axis from the cube-map selection table, so each face is rendered the way the lookup samples it |
| ShadowFbo.FaceAt | Shadows/shadowFBO.h:25-27 | the `i`-th face's target is `GL_TEXTURE_CUBE_MAP_POSITIVE_X + i` |
| ShadowFbo.FaceIndex | Shadows/shadowFBO.h:25-27 | every face has an index below 6 at which the face order lists it |
| ShadowFbo.ConfigureFbo | Shadows/shadowFBO.h:19-28 | exactly six images, `resolution` square, one per face in face order starting at POSITIVE_X; every face gets its own image; the names GL produced are recorded; the matrices are untouched |
| ShadowFbo.CreateCubemapTransformationMatrices | Shadows/shadowFBO.h:42-53 | afterwards the vector has exactly six entries whatever it held; entry `i` renders face `i` from the light with fov 90, aspect 1 and the caller's planes; GL names and images unchanged |
| ShadowFbo.CreateForgetsPreviousMatrices | Shadows/shadowFBO.h:46 | rebuilding is idempotent, and the result does not depend on what the vector held before |
| ShadowFbo.BindFbo | Shadows/shadowFBO.h:55-64 | viewport is resolution × resolution, the shadow framebuffer is bound, depth is cleared, and slot `i` gets `shadowTransforms[i]` for `i < 6`; at least six entries are required |
| ShadowFbo.CreateThenBind | Shadows/shadowFBO.h:42-64 | creating then binding uploads, to slot `i`, the matrix of face `i` for the current light |
| Transforms.Fresh | Shadows/TransformComponent.h:29-32 | a new component has position (0,0,0) and scale (1,1,1) |
| Transforms.FreshModelIsIdentity | Shadows/TransformComponent.h:19-31 | a new component's model matrix is the identity |
| Transforms.SetPos | Shadows/TransformComponent.h:11-17 | `getPos` returns the value set; scale and rotation unchanged |
| Transforms.SetScale | Shadows/TransformComponent.h:11-17 | `getScale` returns the value set; position and rotation unchanged |
| Transforms.SetRotation | Shadows/TransformComponent.h:13-24 | `getRotation` returns the value set; position, scale and the model matrix unchanged |
| Transforms.ModelIsTranslateThenScale | Shadows/TransformComponent.h:19-27 | the model matrix is the product T(position)·S(scale) |
| Transforms.ModelMapsPoint | Shadows/TransformComponent.h:19-27 | the model matrix sends a point `x` to `position + scale ⊙ x` |
| Transforms.ModelOrigin | Shadows/TransformComponent.h:22-23 | the origin goes to `position`, and the translation column is `position` for every scale |
| Matrices.TranslateIsProduct | Shadows/TransformComponent.h:22 | `glm::translate(m, v)` equals `m · T(v)` |
| Matrices.ScaleIsProduct | Shadows/TransformComponent.h:23 | `glm::scale(m, v)` equals `m · S(v)` |
| Matrices.StripTranslationKeepsDirections | Shadows/Main.cpp:332 | `mat4(mat3(m))` fixes the origin and moves directions exactly as `m` does |
| Matrices.StripTranslationIgnoresTranslation | Shadows/Main.cpp:332 | removing the translation forgets any translation applied before, and doing it twice is doing it once |
| Views.StripEyeIgnoresTranslation | Shadows/Main.cpp:332 | moving the eye and the target together leaves the translation-free view unchanged |
| Room.AttributesTileStride | Shadows/Room.cpp:58-66 | position (3 floats at 0), normal (3 at 3) and texture coordinate (2 at 6) tile the 8-float stride exactly |
| Room.ReadFlattenRoundTrip | Shadows/Room.cpp:56-66 | reading vertex `i` back from the flat array, at the attribute offsets, gives vertex `i` |
| Room.VertexData | Shadows/Room.cpp:5-49 | the array holds 36 × 8 floats |
| Room.NormalsPointInward | Shadows/Room.cpp:5-49 | 36 vertices; each position coordinate is ±1 and `normal · position = −1`, so every normal points into the room |
| Room.RangesPartitionRoom | Shadows/Room.cpp:74-131 | walls [0,24) and floor/ceiling [24,36) are disjoint, and their union is exactly `draw`'s range [0,36) |
| Room.RangesFollowNormals | Shadows/Room.cpp:5-49 | every vertex of the walls range has a horizontal normal, and every vertex of the floor/ceiling range a vertical one |
| Room.NewRoom | Shadows/Room.cpp:3-72 | a new room has no textures and a fresh transform |
| Room.DrawIsOneUntexturedDraw | Shadows/Room.cpp:74-83 | `draw` binds no texture and issues one draw of [0,36) |
| Room.CubemapCarriesOverToWalls | Shadows/Room.cpp:85-131 | the walls see the cube map on unit 1 exactly when it was bound there before; after one textured draw it always is, because the floor/ceiling bind leaves it and the wall binds do not touch unit 1's cube-map target |
| Room.BindTexturesUnits | Shadows/Room.cpp:85-131 | walls are drawn with textures[0] on unit 0, textures[1] on unit 1 and the shadow cube map on unit 2; floor/ceiling with textures[2] on unit 0 and the cube map on unit 1; every other (unit, target) binding is the one found on entry, and the floor/ceiling bindings are what is left bound; unit 0 is active afterwards |
| Room.FormatForInvertsChannelCount | Shadows/Room.cpp:144-150 | counts 1, 3, 4 map to RED, RGB, RGBA, and only those counts give a format |
| Room.LoadTexture | Shadows/Room.cpp:135-170 | a decoded image appends exactly the new name at the end and uploads it in the mapped format; a failed decode changes nothing |
| Room.LoadAllAppendsDecoded | Shadows/Room.cpp:135-170 | after any sequence of loads, the list is the old list followed by the names of exactly the loads that decoded, in call order |
| Room.LoadOrderDecidesUnits | Shadows/Main.cpp:122-125 | loading A, B, C puts A and B on units 0 and 1 for the walls and C on unit 0 for floor and ceiling |
| Room.FailedLoadShiftsUnits | Shadows/Room.cpp:142-167 | when the first load fails, every later texture moves down one unit |
| Gl.RunAppend | Shadows/Room.cpp:85-109 | replaying two command logs in turn is replaying their concatenation |
| Gl.RunWithoutBinds | Shadows/Room.cpp:74-83 | every draw is recorded once, and a log that binds nothing leaves the bindings as they were |
| Camera.NewCamera | Shadows/Camera.cpp:4-16 | stores position, yaw and pitch unclamped; world up (0,1,0), speed 2.5, sensitivity 0.1; basis derived from the angles |
| Camera.ClampPitch | Shadows/Camera.cpp:41-44 | the result lies in [−89, 89], and a pitch already in range is kept |
| Camera.ClampPitchIsNearest | Shadows/Camera.cpp:41-44 | the clamped pitch is the point of [−89, 89] nearest to the input |
| Camera.ClampPitchIdempotent | Shadows/Camera.cpp:41-44 | clamping an already clamped pitch changes nothing |
| Camera.Rotate | Shadows/Camera.cpp:33-47 | yaw grows by xOffset·sensitivity (unbounded); pitch becomes clamp(pitch + yOffset·sensitivity); the basis is re-derived; position, world up, speed and sensitivity are unchanged |
| Camera.Move | Shadows/Camera.cpp:19-30 | only the position changes, by ±speed·dt along `front` (forward/backward) or `right` (right/left) |
| Camera.MoveThenOppositeRestores | Shadows/Camera.cpp:19-30 | forward then backward, or left then right, for the same time restores the camera exactly |
| Camera.GetViewMatrix | Shadows/Camera.h:49 | the view looks from the position along `front` with the camera's up vector |
| Input.Toggle | Shadows/Main.cpp:370-387 | a press while unlatched flips the flag and latches; a press while latched changes nothing; a release clears the latch and keeps the flag |
| Input.ToggleCountsRisingEdges | Shadows/Main.cpp:379-387 | after any key sequence the latch records whether the key was last down, and the flag has flipped once per rising edge |
| Input.PressHoldRelease | Shadows/Main.cpp:379-387 | a press held for any number of frames and then released flips the flag exactly once |
| Input.MouseMove | Shadows/Main.cpp:339-351 | the first event gives zero offsets; later events give `xpos − lastX` and `lastY − ypos`; the cursor is recorded and `firstMouse` is cleared |
| Input.OffsetsTelescope | Shadows/Main.cpp:339-351 | a run of events' offsets sums to the motion from the starting cursor to the last event, and the first-event branch is never taken again |
| Frame.ProcessInput | Shadows/Main.cpp:356-388 | ESC requests closing; only the camera position moves; SPACE drives the shadows toggle and P the light-follow toggle, each independently |
| Frame.ProcessInputDisplacement | Shadows/Main.cpp:361-368 | the camera moves by the sum of the pressed keys' displacements |
| Frame.OppositeKeysCancel | Shadows/Main.cpp:361-368 | holding W and S together, or A and D together, leaves the camera where it was |
| Frame.Initial | Shadows/Main.cpp:29-156 | start-up state: the constructed camera at (0,0,3) with yaw −90 and pitch 0 (world up (0,1,0), speed 2.5, sensitivity 0.1), cursor at the screen centre awaiting its first event, both toggles on with their latches clear, light at (0,2,3), room textures are the decoded loads, room and mesh placements as set, samplers `diffuseTexture` on unit 0 and `depthMap` on unit 1 |
| Frame.RoomFillsBox | Shadows/Main.cpp:127-128 | the room's model matrix maps the unit cube onto [−10,10] × [0,10] × [−10,10] |
| Frame.RenderScene | Shadows/Main.cpp:248-327 | room model matrix first, then the room's GL commands (textured bind-and-draw or plain draw), then the mesh's model matrix and draw |
| Frame.UntexturedSceneBindsNothing | Shadows/Main.cpp:264-272 | the untextured scene binds no texture and draws the whole room once |
| Frame.SkyboxView | Shadows/Main.cpp:329-337 | the skybox view depends only on where the camera looks, not where it stands |
| Frame.RunFrame | Shadows/Main.cpp:159-224 | five passes in a fixed order (build matrices, depth pass, default framebuffer, shading pass, skybox); the camera and toggles after the frame are exactly those `processInput` produces from this frame's keys and elapsed time; the light follows that camera when the toggle is on; the close flag records ESC; the cursor, room, mesh and sampler units are unchanged |
| Frame.FrameSharesPlanes | Shadows/Main.cpp:181-218 | one near/far pair builds the shadow projection, and its far plane is given to both the depth and the shading pass |
| Frame.DepthPassUsesThisFramesMatrices | Shadows/Main.cpp:179-203 | the depth pass renders at 1024 × 1024 into the shadow framebuffer; slot `i` gets this frame's face-`i` matrix from this frame's light; both passes use that light position |
| Frame.ShadingPassFollowsCamera | Shadows/Main.cpp:205-224 | the shading pass uses the screen viewport, the view and position of the camera as `processInput` moved it this frame, and the shadows flag after this frame's SPACE poll |
| Frame.PassesBindTheShadowMap | Shadows/Main.cpp:202-223 | the depth pass binds no texture; the shading pass binds the shadow cube map on unit 2 for the walls and on unit 1 for floor and ceiling |
| Frame.ShadingSamplerUnits | Shadows/Main.cpp:116-118 | with the start-up sampler units, floor and ceiling have the third texture on the `diffuseTexture` unit and the cube map on the `depthMap` unit; the walls have the first and second 2D textures there and this draw binds their cube map to unit 2, which neither start-up sampler names; after one textured room draw, the next one's walls also have the cube map on the `depthMap` unit |
| Frame.LightFollowsCamera | Shadows/Main.cpp:170-173 | the light-follow toggle is this frame's P poll; with it on, the light sits at the camera as `processInput` moved it this frame; with it off, the light stays where it was |
| Frame.RenderLoop | Shadows/Main.cpp:159-229 | at most one frame per tick; none once closing was requested; stopping early means closing was requested |
| Frame.EscapeEndsLoop | Shadows/Main.cpp:159-167 | when ESC is first down at tick `k` and closing was not yet requested, exactly `k + 1` frames are rendered: the frame that sees ESC is the last one |
| Frame.MouseCallback | Shadows/Main.cpp:339-354 | records the cursor and turns the camera by `Rotate` with this event's offsets, so the pitch stays in [−89, 89] and position, speed, sensitivity and world up are kept; nothing else in the program state changes |
| Frame.FirstEventDoesNotTurn | Shadows/Main.cpp:341-353 | the first cursor event leaves yaw and an in-range pitch unchanged |
| Frame.LaterEventTurnsByMotion | Shadows/Main.cpp:348-353 | a later event turns yaw by `(xpos − lastX)·sensitivity` and pitch by the clamped `(lastY − ypos)·sensitivity` |

## Left out

- OpenGL and GLFW calls outside the abstract log are not modelled. This
  includes window and context creation, buffer and vertex-array setup,
  texture parameters, framebuffer attachment, clear colours, event polling
  and buffer swaps. `glBindVertexArray` calls are not in the log either.
  GL object names are parameters.
- The numeric contents of `glm::perspective` and `glm::lookAt` are not
  computed. A view or projection is the record of its arguments.
- `updateCameraVectors` is the function parameter `orient`. Its
  trigonometry and normalisation are floating-point library math.
- Image decoding (`stbi_load`) is the parameter `decoded` of
  `Room.LoadTexture`. `None` means the decode failed. `Some` carries the
  width, height and channel count. Because the outcome is a parameter,
  the file path is not needed and is not modelled.
- Room.LoadTexture: the failure message written to standard output when
  decoding fails is not modelled (output only).
- Input.MouseMove: the callback receives `double` cursor positions and
  stores them into the `float` fields `lastX` and `lastY`. The model uses
  one exact `real` for both, so the first event's zero offsets assume the
  position is representable as a `float`.
- Frame.RunFrame: the mesh draw (`DrawWithTextures`, whose source is not
  available) is given the shading shader and the shadow cube map. The
  model assumes that it changes neither the sampler uniforms nor any
  texture binding. `App.samplers` staying as set at start-up, and the
  walls finding the cube map on unit 1 from the second textured room draw
  on, both rest on that assumption.
- Frame.RunFrame and Frame.RenderLoop (and every frame lemma) require the
  room to hold at least three textures. The main program loads exactly
  three and does not check that they decoded. If one fails, `bindTextures`
  reads past the end of the texture vector, which has no defined
  behaviour to model. A start-up where a room texture fails to decode is
  therefore outside the model. `Frame.Initial` itself covers any decoding
  outcome.
- Room.FormatForInvertsChannelCount: the source leaves `format`
  uninitialised for a channel count other than 1, 3 or 4, and still
  uploads and appends the texture. The model returns `None` for the
  format. It cannot say what value the uninitialised variable holds.
- The mesh, shader and skybox classes are not part of this model, because
  their sources are not available. A mesh draw is one abstract scene
  command. The mesh's placement is modelled as a `Transform`, since the
  main program uses its setters and `getModel`. Per-frame uniform uploads
  are recorded as fields of each pass, and the start-up sampler units as
  `Frame.App.samplers`.
- The cube and plane objects the main program creates are not modelled.
  The scene never draws them: those calls are commented out.
- `setCameraViewTransforms` is not modelled, because nothing calls it.
- `framebuffer_size_callback` is not modelled, because it only forwards a
  viewport to GL.
- Float arithmetic is modelled as exact `real` arithmetic. Rounding is
  not modelled.
- The main loop's time source is the `time` field of each tick.
  `deltaTime` is computed from it exactly.
- Cursor events arrive between frames. They are applied by
  `Frame.MouseCallback` and are not interleaved inside `Frame.RenderLoop`.
- The shaders are not modelled: their sources are not available. This
  covers depth encoding, the shadow comparison and what each sampler
  reads.

=== FILE: Camera.dfy ===
/**
  The fly-through camera: a position, Euler angles (yaw and pitch, in
  degrees) and the front/right/up basis derived from them.  Deriving the
  basis is trigonometry on floats and is not modelled: it is passed in as
  a function `orient(yaw, pitch, worldUp)`, standing for
  `updateCameraVectors`.
 */
module Camera {
  import opened Vectors
  import opened Views

  datatype Movement = Forward | Backward | Left | Right

  datatype Basis = Basis(front: Vec3, right: Vec3, up: Vec3)

  datatype Camera = Camera(position: Vec3, basis: Basis, worldUp: Vec3, yaw: real, pitch: real,
                           movementSpeed: real, mouseSensitivity: real)

  /** The largest pitch, in degrees, that `Rotate` allows either way. */
  const PitchLimit: real := 89.0

  /**
    The constructor: stores position, yaw and pitch as given (the pitch is
    not clamped here), world up `(0, 1, 0)`, speed 2.5 and sensitivity
    0.1, and derives the basis.
   */
  function NewCamera(position: Vec3, yaw: real, pitch: real, orient: (real, real, Vec3) -> Basis)
    : (c: Camera)
    ensures c.position == position && c.yaw == yaw && c.pitch == pitch
    ensures c.worldUp == Vec3(0.0, 1.0, 0.0)
    ensures c.movementSpeed == 2.5 && c.mouseSensitivity == 0.1
    ensures c.basis == orient(yaw, pitch, c.worldUp)
  {
    var worldUp := Vec3(0.0, 1.0, 0.0);
    Camera(position, orient(yaw, pitch, worldUp), worldUp, yaw, pitch, 2.5, 0.1)
  }

  function Abs(x: real): real { if x < 0.0 then -x else x }

  /**
    The pitch clamp of `Rotate`: first capped at +89, then raised to -89.
    An in-range pitch is kept as it is.
   */
  function ClampPitch(p: real): (r: real)
    ensures -PitchLimit <= r <= PitchLimit
    ensures -PitchLimit <= p <= PitchLimit ==> r == p
  {
    var capped := if p > PitchLimit then PitchLimit else p;
    if capped < -PitchLimit then -PitchLimit else capped
  }

  /** The clamped pitch is the point of `[-89, 89]` nearest to the input. */
  lemma ClampPitchIsNearest(p: real, q: real)
    requires -PitchLimit <= q <= PitchLimit
    ensures Abs(ClampPitch(p) - p) <= Abs(q - p)
  {
  }

  /** Clamping twice is clamping once. */
  lemma ClampPitchIdempotent(p: real)
    ensures ClampPitch(ClampPitch(p)) == ClampPitch(p)
  {
  }

  /**
    `Rotate`: scale both offsets by the mouse sensitivity, add them to yaw
    (unbounded) and pitch, clamp the pitch, and re-derive the basis.
   */
  function Rotate(c: Camera, xOffset: real, yOffset: real, orient: (real, real, Vec3) -> Basis)
    : (r: Camera)
    ensures -PitchLimit <= r.pitch <= PitchLimit
    ensures r.yaw == c.yaw + xOffset * c.mouseSensitivity
    ensures r.pitch == ClampPitch(c.pitch + yOffset * c.mouseSensitivity)
    ensures r.basis == orient(r.yaw, r.pitch, c.worldUp)
    ensures r.position == c.position && r.worldUp == c.worldUp
    ensures r.movementSpeed == c.movementSpeed && r.mouseSensitivity == c.mouseSensitivity
  {
    var x := xOffset * c.mouseSensitivity;
    var y := yOffset * c.mouseSensitivity;
    var yaw := c.yaw + x;
    var pitch := ClampPitch(c.pitch + y);
    c.(yaw := yaw, pitch := pitch, basis := orient(yaw, pitch, c.worldUp))
  }

  /** The displacement of one `Move`: +-velocity along front or right. */
  function Displacement(c: Camera, m: Movement, deltaTime: real): Vec3 {
    var velocity := c.movementSpeed * deltaTime;
    match m
    case Forward => Times(c.basis.front, velocity)
    case Backward => Neg(Times(c.basis.front, velocity))
    case Left => Neg(Times(c.basis.right, velocity))
    case Right => Times(c.basis.right, velocity)
  }

  /**
    `Move`: only the position changes, by `velocity = speed * deltaTime`
    along `front` (forward/backward) or `right` (right/left).
   */
  function Move(c: Camera, m: Movement, deltaTime: real): (r: Camera)
    ensures r == c.(position := Add(c.position, Displacement(c, m, deltaTime)))
  {
    var velocity := c.movementSpeed * deltaTime;
    match m
    case Forward => c.(position := Add(c.position, Times(c.basis.front, velocity)))
    case Backward => c.(position := Sub(c.position, Times(c.basis.front, velocity)))
    case Left => c.(position := Sub(c.position, Times(c.basis.right, velocity)))
    case Right => c.(position := Add(c.position, Times(c.basis.right, velocity)))
  }

  /** The movement that undoes `m`. */
  function Opposite(m: Movement): Movement {
    match m
    case Forward => Backward
    case Backward => Forward
    case Left => Right
    case Right => Left
  }

  /**
    Moving one way and then the opposite way for the same time restores
    the camera exactly: forward/backward and left/right cancel.
   */
  lemma MoveThenOppositeRestores(c: Camera, m: Movement, deltaTime: real)
    ensures Move(Move(c, m, deltaTime), Opposite(m), deltaTime) == c
  {
    var once := Move(c, m, deltaTime);
    var d := Displacement(c, m, deltaTime);
    assert once == c.(position := Add(c.position, d));
    assert Displacement(once, Opposite(m), deltaTime) == Neg(d);
    assert Add(Add(c.position, d), Neg(d)) == c.position;
  }

  /** The view matrix: `lookAt(position, position + front, up)`. */
  function GetViewMatrix(c: Camera): (v: LookAt)
    ensures v.eye == c.position && LookDirection(v) == c.basis.front && v.up == c.basis.up
  {
    AddSubCancel(c.position, c.basis.front);
    assert Sub(Add(c.position, c.basis.front), c.position) == c.basis.front;
    LookAt(c.position, Add(c.position, c.basis.front), c.basis.up)
  }
}

=== FILE: Frame.dfy ===
/**
  The main program: its start-up state, the per-frame input polling, the
  light-follows-camera rule, the fixed sequence of render passes and the
  mouse callback.  GL state changes are kept as data: a frame produces the
  list of passes it runs, and each pass records the uniforms it sets and
  the scene commands it issues.
 */
module Frame {
  import opened Vectors
  import opened Matrices
  import opened Views
  import opened Gl
  import opened Transforms
  import opened Input
  import Camera
  import Room
  import ShadowFbo

  const ScreenWidth: nat := 1280
  const ScreenHeight: nat := 720

  /** The size of each face of the depth cube map the main loop renders into. */
  const ShadowWidth: nat := 1024
  const ShadowHeight: nat := 1024

  /** The light's near and far planes, shared by every pass of a frame. */
  const NearPlane: real := 1.0
  const FarPlane: real := 25.0

  /** The camera projection of the shading and skybox passes: 45 degrees, screen aspect. */
  const SceneProjection := Perspective(45.0, ScreenWidth as real / ScreenHeight as real, 0.1, 100.0)

  // ----- Input ---------------------------------------------------------------

  /** The keys the main program polls, as reported for one frame. */
  datatype Keys = Keys(escape: KeyState, w: KeyState, s: KeyState, a: KeyState, d: KeyState,
                       p: KeyState, space: KeyState)

  /** The shadows toggle (SPACE), the light-follow toggle (P) and the close request. */
  datatype Controls = Controls(shadows: Latch, moveLight: Latch, shouldClose: bool)

  /** Both toggles start on and unlatched. */
  const InitialControls := Controls(Latch(true, false), Latch(true, false), false)

  function MoveIf(c: Camera.Camera, key: KeyState, m: Camera.Movement, deltaTime: real): Camera.Camera {
    if key == Pressed then Camera.Move(c, m, deltaTime) else c
  }

  /** The displacement a key contributes: its movement's when pressed, none otherwise. */
  function KeyDisplacement(c: Camera.Camera, key: KeyState, m: Camera.Movement, deltaTime: real): Vec3 {
    if key == Pressed then Camera.Displacement(c, m, deltaTime) else Zero
  }

  datatype Polled = Polled(camera: Camera.Camera, controls: Controls)

  /**
    `processInput`: ESC requests closing; W, S, A, D move the camera in
    that order; P and SPACE drive their toggles.  Only the camera position
    moves, and each toggle sees only its own key.
   */
  function ProcessInput(camera: Camera.Camera, controls: Controls, keys: Keys, deltaTime: real)
    : (r: Polled)
    ensures r.camera == camera.(position := r.camera.position)
    ensures r.controls.shouldClose == (controls.shouldClose || keys.escape == Pressed)
    ensures r.controls.moveLight == Toggle(controls.moveLight, keys.p)
    ensures r.controls.shadows == Toggle(controls.shadows, keys.space)
  {
    var shouldClose := if keys.escape == Pressed then true else controls.shouldClose;
    var c1 := MoveIf(camera, keys.w, Camera.Forward, deltaTime);
    var c2 := MoveIf(c1, keys.s, Camera.Backward, deltaTime);
    var c3 := MoveIf(c2, keys.a, Camera.Left, deltaTime);
    var c4 := MoveIf(c3, keys.d, Camera.Right, deltaTime);
    Polled(c4, Controls(Toggle(controls.shadows, keys.space), Toggle(controls.moveLight, keys.p), shouldClose))
  }

  /** A polled key moves the camera by its displacement and changes nothing else. */
  lemma MoveIfDisplaces(c: Camera.Camera, key: KeyState, m: Camera.Movement, deltaTime: real)
    ensures MoveIf(c, key, m, deltaTime)
            == c.(position := Add(c.position, KeyDisplacement(c, key, m, deltaTime)))
  {
    if key == Released {
      assert Add(c.position, Zero) == c.position;
    }
  }

  /**
    The camera moves by the sum of the displacements of the pressed
    movement keys, all taken along the basis the camera had at the start.
   */
  lemma ProcessInputDisplacement(camera: Camera.Camera, controls: Controls, keys: Keys, deltaTime: real)
    ensures ProcessInput(camera, controls, keys, deltaTime).camera.position
            == Add(Add(Add(Add(camera.position,
                               KeyDisplacement(camera, keys.w, Camera.Forward, deltaTime)),
                           KeyDisplacement(camera, keys.s, Camera.Backward, deltaTime)),
                       KeyDisplacement(camera, keys.a, Camera.Left, deltaTime)),
                   KeyDisplacement(camera, keys.d, Camera.Right, deltaTime))
  {
    var c1 := MoveIf(camera, keys.w, Camera.Forward, deltaTime);
    MoveIfDisplaces(camera, keys.w, Camera.Forward, deltaTime);
    var c2 := MoveIf(c1, keys.s, Camera.Backward, deltaTime);
    MoveIfDisplaces(c1, keys.s, Camera.Backward, deltaTime);
    assert KeyDisplacement(c1, keys.s, Camera.Backward, deltaTime)
           == KeyDisplacement(camera, keys.s, Camera.Backward, deltaTime);
    var c3 := MoveIf(c2, keys.a, Camera.Left, deltaTime);
    MoveIfDisplaces(c2, keys.a, Camera.Left, deltaTime);
    assert KeyDisplacement(c2, keys.a, Camera.Left, deltaTime)
           == KeyDisplacement(camera, keys.a, Camera.Left, deltaTime);
    MoveIfDisplaces(c3, keys.d, Camera.Right, deltaTime);
    assert KeyDisplacement(c3, keys.d, Camera.Right, deltaTime)
           == KeyDisplacement(camera, keys.d, Camera.Right, deltaTime);
  }

  /**
    Holding both keys of a pair (W and S, or A and D), or neither, leaves
    the camera where it was.
   */
  lemma OppositeKeysCancel(camera: Camera.Camera, controls: Controls, keys: Keys, deltaTime: real)
    requires keys.w == keys.s && keys.a == keys.d
    ensures ProcessInput(camera, controls, keys, deltaTime).camera == camera
  {
    var c2 := MoveIf(MoveIf(camera, keys.w, Camera.Forward, deltaTime), keys.s, Camera.Backward, deltaTime);
    if keys.w == Pressed {
      Camera.MoveThenOppositeRestores(camera, Camera.Forward, deltaTime);
    }
    assert c2 == camera;
    if keys.a == Pressed {
      Camera.MoveThenOppositeRestores(camera, Camera.Left, deltaTime);
    }
  }

  // ----- Start-up --------------------------------------------------------------

  /**
    The main program's state between frames.  `model` is the placement of
    the loaded mesh; `depthCubemap` and `depthMapFbo` are the names GL gave
    the shadow cube map and its framebuffer at start-up.
   */
  datatype App = App(camera: Camera.Camera, mouse: Mouse, controls: Controls, lightPos: Vec3,
                     lastFrame: real, room: Room.Room, model: Transform, depthCubemap: nat,
                     depthMapFbo: nat, samplers: SamplerUnits)

  /**
    The texture units the shading shader's two samplers are pointed at,
    once, at start-up: `diffuseTexture` and `depthMap`.
   */
  datatype SamplerUnits = SamplerUnits(diffuseTexture: nat, depthMap: nat)

  const RoomScale := Vec3(10.0, 5.0, 10.0)
  const RoomPosition := Vec3(0.0, 5.0, 0.0)
  const ModelScale := Vec3(3.0, 3.0, 3.0)
  const ModelPosition := Vec3(3.0, 0.0, 3.0)

  /**
    Start-up: the camera at `(0, 0, 3)` looking down -z (yaw -90, pitch
    0), with the constructor's defaults; the cursor waiting for its first
    event; both toggles on with their latches clear; the light
    at `(0, 2, 3)`; the room built, given its textures by `loads`, scaled
    to 10 x 5 x 10 and lifted by 5; the mesh scaled by 3 and placed at
    `(3, 0, 3)`.
   */
  function Initial(orient: (real, real, Vec3) -> Camera.Basis, vao: nat, loads: seq<Room.Load>,
                   roomRotation: Vec3, modelRotation: Vec3, depthCubemap: nat, depthMapFbo: nat)
    : (r: App)
    ensures r.camera.position == Vec3(0.0, 0.0, 3.0) && r.camera.yaw == -90.0 && r.camera.pitch == 0.0
    ensures r.mouse == InitialMouse && r.controls.shadows.on && r.controls.moveLight.on
    ensures !r.controls.shouldClose && r.lightPos == Vec3(0.0, 2.0, 3.0) && r.lastFrame == 0.0
    ensures r.room.textures == Room.Decoded(loads)
    ensures r.room.transform.position == RoomPosition && r.room.transform.scale == RoomScale
    ensures r.model.position == ModelPosition && r.model.scale == ModelScale
    ensures r.samplers.diffuseTexture == 0 && r.samplers.depthMap == 1
    ensures r.controls == InitialControls && !r.controls.shadows.held && !r.controls.moveLight.held
    ensures r.camera == Camera.NewCamera(Vec3(0.0, 0.0, 3.0), -90.0, 0.0, orient)
    ensures r.camera.worldUp == Vec3(0.0, 1.0, 0.0)
    ensures r.camera.movementSpeed == 2.5 && r.camera.mouseSensitivity == 0.1
  {
    var loaded := Room.LoadAll(Room.NewRoom(vao, roomRotation), loads);
    Room.LoadAllAppendsDecoded(Room.NewRoom(vao, roomRotation), loads);
    var room := loaded.(transform := SetPos(SetScale(loaded.transform, RoomScale), RoomPosition));
    var model := SetPos(SetScale(Fresh(modelRotation), ModelScale), ModelPosition);
    App(Camera.NewCamera(Vec3(0.0, 0.0, 3.0), -90.0, 0.0, orient), InitialMouse, InitialControls,
        Vec3(0.0, 2.0, 3.0), 0.0, room, model, depthCubemap, depthMapFbo, SamplerUnits(0, 1))
  }

  /** The room's model matrix maps its unit cube onto the box `[-10, 10] x [0, 10] x [-10, 10]`. */
  lemma RoomFillsBox(t: Transform, x: Vec3)
    requires t.position == RoomPosition && t.scale == RoomScale
    ensures Apply(GetModel(t), Point(x))
            == Point(Vec3(10.0 * x.x, 5.0 + 5.0 * x.y, 10.0 * x.z))
  {
    var image := Add(t.position, Hadamard(t.scale, x));
    assert image == Vec3(10.0 * x.x, 5.0 + 5.0 * x.y, 10.0 * x.z) by {
      assert t.scale.x == 10.0 && t.scale.y == 5.0 && t.scale.z == 10.0;
      assert t.position.x == 0.0 && t.position.y == 5.0 && t.position.z == 0.0;
    }
    ModelMapsPoint(t, x);
  }

  // ----- The scene -------------------------------------------------------------

  /**
    What `renderScene` sends: a model-matrix uniform, a GL command of the
    room, or a draw of the mesh (whose class is not part of this model).
   */
  datatype SceneCmd = SetModel(model: Mat4) | Issue(cmd: Command) | DrawModel(withTextures: bool, cubemap: nat)

  function Issues(cmds: seq<Command>): (r: seq<SceneCmd>)
    ensures |r| == |cmds|
    ensures forall i :: 0 <= i < |cmds| ==> r[i] == Issue(cmds[i])
  {
    seq(|cmds|, i requires 0 <= i < |cmds| => Issue(cmds[i]))
  }

  /** The GL commands among the scene commands, in order. */
  function GlCommands(scene: seq<SceneCmd>): seq<Command>
    decreases |scene|
  {
    if scene == [] then []
    else
      var last := scene[|scene| - 1];
      GlCommands(scene[..|scene| - 1]) + (if last.Issue? then [last.cmd] else [])
  }

  lemma {:induction false} GlCommandsAppend(a: seq<SceneCmd>, b: seq<SceneCmd>)
    ensures GlCommands(a + b) == GlCommands(a) + GlCommands(b)
    decreases |b|
  {
    if b == [] {
      assert a + b == a;
    } else {
      var init := b[..|b| - 1];
      assert (a + b)[..|a + b| - 1] == a + init;
      GlCommandsAppend(a, init);
    }
  }

  lemma {:induction false} GlCommandsOfIssues(cmds: seq<Command>)
    ensures GlCommands(Issues(cmds)) == cmds
    decreases |cmds|
  {
    if cmds != [] {
      var init := cmds[..|cmds| - 1];
      assert Issues(cmds)[..|cmds| - 1] == Issues(init);
      GlCommandsOfIssues(init);
    }
  }

  /** The room's GL commands: the textured bind-and-draw path or the plain draw. */
  function RoomCommands(room: Room.Room, cubemap: nat, withTextures: bool): seq<Command>
    requires withTextures ==> |room.textures| >= 3
  {
    if withTextures then Room.BindTextures(room, cubemap) else Room.Draw(room)
  }

  /**
    `renderScene`: the room first, under its own model matrix, then the
    mesh under its model matrix.  `withTextures` selects the textured path
    for both.  The textured room path reads the first three textures.
   */
  function RenderScene(room: Room.Room, model: Transform, cubemap: nat, withTextures: bool)
    : (r: seq<SceneCmd>)
    requires withTextures ==> |room.textures| >= 3
    ensures |r| >= 3 && r[0] == SetModel(GetModel(room.transform))
    ensures r[|r| - 2] == SetModel(GetModel(model)) && r[|r| - 1] == DrawModel(withTextures, cubemap)
    ensures forall i :: 0 < i < |r| - 2 ==> r[i].Issue?
    ensures GlCommands(r) == RoomCommands(room, cubemap, withTextures)
  {
    var roomCmds := RoomCommands(room, cubemap, withTextures);
    var r := [SetModel(GetModel(room.transform))] + Issues(roomCmds)
             + [SetModel(GetModel(model)), DrawModel(withTextures, cubemap)];
    GlCommandsOfIssues(roomCmds);
    GlCommandsAppend([SetModel(GetModel(room.transform))], Issues(roomCmds));
    GlCommandsAppend([SetModel(GetModel(room.transform))] + Issues(roomCmds),
                     [SetModel(GetModel(model)), DrawModel(withTextures, cubemap)]);
    assert GlCommands([SetModel(GetModel(room.transform))]) == [] by {
      assert [SetModel(GetModel(room.transform))][..0] == [];
    }
    assert GlCommands([SetModel(GetModel(model)), DrawModel(withTextures, cubemap)]) == [] by {
      var tail := [SetModel(GetModel(model)), DrawModel(withTextures, cubemap)];
      assert tail[..1][..0] == [];
      assert tail[..1] == [SetModel(GetModel(model))];
    }
    r
  }

  /** The untextured scene binds no texture and draws the whole room once. */
  lemma UntexturedSceneBindsNothing(room: Room.Room, model: Transform, cubemap: nat, s: State)
    ensures BindsNoTexture(GlCommands(RenderScene(room, model, cubemap, false)))
    ensures Run(s, GlCommands(RenderScene(room, model, cubemap, false))).draws == [Gl.Draw(0, 36, s.bound)]
  {
    Room.DrawIsOneUntexturedDraw(room, s);
  }

  // ----- One frame -------------------------------------------------------------

  /** The render passes of a frame, as the GL state each one sets up. */
  datatype Pass =
    | BuildShadowMatrices(projection: Perspective, transforms: seq<ViewProjection>)
    | DepthPass(setup: ShadowFbo.DepthPassSetup, farPlane: real, lightPos: Vec3, scene: seq<SceneCmd>)
    | DefaultFramebuffer(viewport: Viewport)
    | ShadingPass(projection: Perspective, view: LookAt, lightPos: Vec3, viewPos: Vec3, shadows: bool,
                  farPlane: real, scene: seq<SceneCmd>)
    | SkyboxPass(projection: Perspective, skyboxView: RotationOnly)

  datatype FrameResult = FrameResult(app: App, passes: seq<Pass>)

  /**
    The skybox view: the camera's view with its translation removed.  It
    depends on where the camera looks, never on where it stands.
   */
  function SkyboxView(c: Camera.Camera): (v: RotationOnly)
    ensures v == RotationOnly(c.basis.front, c.basis.up)
  {
    StripEye(Camera.GetViewMatrix(c))
  }

  /**
    One iteration of the render loop at time `time` with the keys `keys`.
    The textured room draw reads three textures, so at least three loads
    must have decoded.
   */
  function RunFrame(app: App, time: real, keys: Keys): (r: FrameResult)
    requires |app.room.textures| >= 3
    ensures |r.passes| == 5
    ensures r.passes[0].BuildShadowMatrices? && r.passes[1].DepthPass? && r.passes[2].DefaultFramebuffer?
    ensures r.passes[3].ShadingPass? && r.passes[4].SkyboxPass?
    ensures r.app.lightPos == if r.app.controls.moveLight.on then r.app.camera.position else app.lightPos
    ensures r.app.lastFrame == time
    ensures r.app.controls.shouldClose == (app.controls.shouldClose || keys.escape == Pressed)
    ensures var p := ProcessInput(app.camera, app.controls, keys, time - app.lastFrame);
            r.app.camera == p.camera && r.app.controls == p.controls
    ensures r.app.samplers == app.samplers
    ensures r.app.mouse == app.mouse && r.app.room == app.room && r.app.model == app.model
  {
    var polled := ProcessInput(app.camera, app.controls, keys, time - app.lastFrame);
    var light := if polled.controls.moveLight.on then polled.camera.position else app.lightPos;
    var transforms := ShadowFbo.CubeFaceTransforms(light, ShadowWidth, ShadowHeight, NearPlane, FarPlane);
    var depthSetup := ShadowFbo.DepthPassSetup(Viewport(0, 0, ShadowWidth, ShadowHeight), app.depthMapFbo,
                                               true, ShadowFbo.UploadFaceMatrices(transforms));
    var view := Camera.GetViewMatrix(polled.camera);
    var passes := [
      BuildShadowMatrices(ShadowFbo.FaceProjection(ShadowWidth, ShadowHeight, NearPlane, FarPlane), transforms),
      DepthPass(depthSetup, FarPlane, light, RenderScene(app.room, app.model, app.depthCubemap, false)),
      DefaultFramebuffer(Viewport(0, 0, ScreenWidth, ScreenHeight)),
      ShadingPass(SceneProjection, view, light, polled.camera.position, polled.controls.shadows.on,
                  FarPlane, RenderScene(app.room, app.model, app.depthCubemap, true)),
      SkyboxPass(SceneProjection, SkyboxView(polled.camera))
    ];
    FrameResult(app.(camera := polled.camera, controls := polled.controls, lightPos := light,
                     lastFrame := time),
                passes)
  }

  /**
    One near/far pair per frame: the shadow projection is built from it,
    and the same far plane is given to the depth pass and to the shading
    pass.
   */
  lemma FrameSharesPlanes(app: App, time: real, keys: Keys)
    requires |app.room.textures| >= 3
    ensures var ps := RunFrame(app, time, keys).passes;
            && ps[0].projection.near == NearPlane && ps[0].projection.far == FarPlane
            && ps[1].farPlane == FarPlane && ps[3].farPlane == FarPlane
  {
  }

  /**
    The depth pass renders into the shadow framebuffer at the cube map's
    size, and uploads to slot `i` this frame's matrix for face `i`, looking
    out from this frame's light position with a 90 degree square
    projection; the shading pass lights the scene from the same position.
   */
  lemma DepthPassUsesThisFramesMatrices(app: App, time: real, keys: Keys, i: nat)
    requires |app.room.textures| >= 3 && i < 6
    ensures var r := RunFrame(app, time, keys);
            && r.passes[1].setup.viewport == Viewport(0, 0, ShadowWidth, ShadowHeight)
            && r.passes[1].setup.framebuffer == app.depthMapFbo
            && |r.passes[0].transforms| == 6 && |r.passes[1].setup.uploads| == 6
            && r.passes[1].setup.uploads[i] == ShadowFbo.Upload(i, r.passes[0].transforms[i])
            && ShadowFbo.RendersFace(r.passes[0].transforms[i], ShadowFbo.FaceAt(i), r.app.lightPos,
                                     Perspective(90.0, 1.0, NearPlane, FarPlane))
            && r.passes[1].lightPos == r.app.lightPos && r.passes[3].lightPos == r.app.lightPos
  {
  }

  /**
    The shading pass views the scene through the camera as it is after this
    frame's input, with the shadows flag as toggled this frame.  The skybox
    follows where the camera looks.
   */
  lemma ShadingPassFollowsCamera(app: App, time: real, keys: Keys)
    requires |app.room.textures| >= 3
    ensures var r := RunFrame(app, time, keys);
            && r.passes[2].viewport == Viewport(0, 0, ScreenWidth, ScreenHeight)
            && r.passes[3].view == Camera.GetViewMatrix(r.app.camera)
            && r.passes[3].viewPos == r.app.camera.position
            && r.passes[3].shadows == r.app.controls.shadows.on
            && r.passes[4].skyboxView == RotationOnly(r.app.camera.basis.front, r.app.camera.basis.up)
    ensures var r, p := RunFrame(app, time, keys), ProcessInput(app.camera, app.controls, keys, time - app.lastFrame);
            && r.passes[3].view == Camera.GetViewMatrix(p.camera)
            && r.passes[3].viewPos == p.camera.position
            && r.passes[3].shadows == Toggle(app.controls.shadows, keys.space).on
  {
  }

  /**
    The depth pass draws the scene without textures; the shading pass draws
    it textured, binding the shadow cube map to unit 2 for the walls and to
    unit 1 for floor and ceiling.
   */
  lemma PassesBindTheShadowMap(app: App, time: real, keys: Keys, s: State)
    requires |app.room.textures| >= 3
    ensures var r := RunFrame(app, time, keys);
            && BindsNoTexture(GlCommands(r.passes[1].scene))
            && GlCommands(r.passes[3].scene) == Room.BindTextures(app.room, app.depthCubemap)
            && Room.WallsSee(app.room, app.depthCubemap, s, 2, CubeMap, app.depthCubemap)
            && Room.FloorCeilingSees(app.room, app.depthCubemap, s, 1, CubeMap, app.depthCubemap)
  {
    UntexturedSceneBindsNothing(app.room, app.model, app.depthCubemap, s);
    Room.BindTexturesUnits(app.room, app.depthCubemap, s);
  }

  /**
    What the two start-up sampler units hold while the room is shaded.  For
    floor and ceiling, the diffuse unit holds the third texture and the
    depth-map unit holds the shadow cube map.  For the walls, the diffuse
    unit holds the first texture and the depth-map unit the second one as a
    2D texture; this draw binds the cube map to unit 2, which neither
    sampler names.  Unit 1's cube-map target is not rebound for the walls:
    after one textured room draw, the walls of the next one (with no bind
    in between) find the shadow cube map on the depth-map unit as well.
   */
  lemma ShadingSamplerUnits(app: App, s: State)
    requires |app.room.textures| >= 3 && app.samplers == SamplerUnits(0, 1)
    ensures var room, cm, u := app.room, app.depthCubemap, app.samplers;
            && Room.FloorCeilingSees(room, cm, s, u.diffuseTexture, Texture2D, room.textures[2])
            && Room.FloorCeilingSees(room, cm, s, u.depthMap, CubeMap, cm)
            && Room.WallsSee(room, cm, s, u.diffuseTexture, Texture2D, room.textures[0])
            && Room.WallsSee(room, cm, s, u.depthMap, Texture2D, room.textures[1])
            && Room.WallsSee(room, cm, s, 2, CubeMap, cm)
            && u.diffuseTexture != 2 && u.depthMap != 2
    ensures var room, cm, u := app.room, app.depthCubemap, app.samplers;
            Room.WallsSee(room, cm, Run(s, Room.BindTextures(room, cm)).final, u.depthMap, CubeMap, cm)
  {
    Room.BindTexturesUnits(app.room, app.depthCubemap, s);
    Room.CubemapCarriesOverToWalls(app.room, app.depthCubemap, s);
  }

  /**
    With the light-follow toggle on, the light sits at the camera after the
    frame's movement; with it off, it stays wherever it was left.
   */
  lemma LightFollowsCamera(app: App, time: real, keys: Keys)
    requires |app.room.textures| >= 3
    ensures var r := RunFrame(app, time, keys);
            r.app.controls.moveLight.on ==> r.app.lightPos == r.app.camera.position
    ensures var r := RunFrame(app, time, keys);
            !r.app.controls.moveLight.on ==> r.app.lightPos == app.lightPos
    ensures var r, p := RunFrame(app, time, keys), ProcessInput(app.camera, app.controls, keys, time - app.lastFrame);
            && r.app.controls.moveLight == Toggle(app.controls.moveLight, keys.p)
            && (r.app.controls.moveLight.on ==> r.app.lightPos == p.camera.position)
  {
  }

  /** The time and keys the render loop reads at the start of one iteration. */
  datatype Tick = Tick(time: real, keys: Keys)

  datatype Loop = Loop(app: App, frames: nat)

  /**
    The render loop: before each iteration it checks the close request, so
    the frame in which ESC is first seen is still rendered in full and no
    frame follows it.  Cursor events, which arrive between frames, are
    applied separately by `MouseCallback`.
   */
  function RenderLoop(app: App, ticks: seq<Tick>): (r: Loop)
    requires |app.room.textures| >= 3
    ensures r.frames <= |ticks|
    ensures app.controls.shouldClose ==> r.frames == 0 && r.app == app
    ensures r.frames < |ticks| ==> r.app.controls.shouldClose
    ensures r.app.room == app.room
    decreases |ticks|
  {
    if ticks == [] || app.controls.shouldClose then Loop(app, 0)
    else
      var next := RunFrame(app, ticks[0].time, ticks[0].keys).app;
      var rest := RenderLoop(next, ticks[1..]);
      Loop(rest.app, rest.frames + 1)
  }

  /**
    Pressing ESC ends the loop after the frame that sees it: when ESC is
    first down at tick `k`, exactly the frames of ticks `0 .. k` are
    rendered.
   */
  lemma {:induction false} EscapeEndsLoop(app: App, ticks: seq<Tick>, k: nat)
    requires |app.room.textures| >= 3 && !app.controls.shouldClose
    requires k < |ticks| && ticks[k].keys.escape == Pressed
    requires forall j :: 0 <= j < k ==> ticks[j].keys.escape == Released
    ensures RenderLoop(app, ticks).frames == k + 1
    decreases k
  {
    var next := RunFrame(app, ticks[0].time, ticks[0].keys).app;
    if k > 0 {
      assert ticks[0].keys.escape == Released;
      assert forall j :: 0 <= j < k - 1 ==> ticks[1..][j] == ticks[j + 1];
      EscapeEndsLoop(next, ticks[1..], k - 1);
    } else {
      assert RenderLoop(next, ticks[1..]).frames == 0;
    }
  }

  // ----- Mouse -----------------------------------------------------------------

  /** `mouse_callback`: compute the offsets, then rotate the camera by them. */
  function MouseCallback(app: App, xpos: real, ypos: real, orient: (real, real, Vec3) -> Camera.Basis)
    : (r: App)
    ensures r.mouse == Mouse(xpos, ypos, false)
    ensures -Camera.PitchLimit <= r.camera.pitch <= Camera.PitchLimit
    ensures r.camera.position == app.camera.position
    ensures r == app.(mouse := r.mouse, camera := r.camera)
    ensures var m := MouseMove(app.mouse, xpos, ypos);
            r.camera == Camera.Rotate(app.camera, m.xOffset, m.yOffset, orient)
    ensures r.camera.movementSpeed == app.camera.movementSpeed
    ensures r.camera.mouseSensitivity == app.camera.mouseSensitivity && r.camera.worldUp == app.camera.worldUp
  {
    var moved := MouseMove(app.mouse, xpos, ypos);
    app.(mouse := moved.mouse, camera := Camera.Rotate(app.camera, moved.xOffset, moved.yOffset, orient))
  }

  /**
    The first cursor event does not turn the camera: yaw and an in-range
    pitch stay as they were.
   */
  lemma FirstEventDoesNotTurn(app: App, xpos: real, ypos: real, orient: (real, real, Vec3) -> Camera.Basis)
    requires app.mouse.firstMouse
    requires -Camera.PitchLimit <= app.camera.pitch <= Camera.PitchLimit
    ensures MouseCallback(app, xpos, ypos, orient).camera.yaw == app.camera.yaw
    ensures MouseCallback(app, xpos, ypos, orient).camera.pitch == app.camera.pitch
  {
  }

  /**
    A later event turns the camera by the cursor motion since the last
    event: right turns right, up (a smaller window `y`) looks up.
   */
  lemma LaterEventTurnsByMotion(app: App, xpos: real, ypos: real, orient: (real, real, Vec3) -> Camera.Basis)
    requires !app.mouse.firstMouse
    ensures MouseCallback(app, xpos, ypos, orient).camera.yaw
            == app.camera.yaw + (xpos - app.mouse.lastX) * app.camera.mouseSensitivity
    ensures MouseCallback(app, xpos, ypos, orient).camera.pitch
            == Camera.ClampPitch(app.camera.pitch + (app.mouse.lastY - ypos) * app.camera.mouseSensitivity)
  {
    var moved := MouseMove(app.mouse, xpos, ypos);
    var turned := Camera.Rotate(app.camera, moved.xOffset, moved.yOffset, orient);
    assert MouseCallback(app, xpos, ypos, orient).camera == turned;
    assert moved.xOffset == xpos - app.mouse.lastX;
    assert turned.yaw == app.camera.yaw + moved.xOffset * app.camera.mouseSensitivity;
    assert moved.yOffset == app.mouse.lastY - ypos;
    var pitch := app.camera.pitch + (app.mouse.lastY - ypos) * app.camera.mouseSensitivity;
    assert app.camera.pitch + moved.yOffset * app.camera.mouseSensitivity == pitch;
    assert turned.pitch == Camera.ClampPitch(pitch);
  }
}

=== FILE: Gl.dfy ===
/**
  An abstract log of the OpenGL calls whose order the renderer depends on:
  selecting a texture unit, binding a texture to a target of the selected
  unit, and drawing a range of vertices.  `Run` replays a log on a small
  state machine (the active unit and the texture bound to each
  (unit, target) pair) and records, for every draw, which textures were
  bound when it was issued.  Everything else the GL does is outside the
  model.
 */
module Gl {

  datatype Viewport = Viewport(x: int, y: int, width: nat, height: nat)

  /** Texture targets; each texture unit has one binding per target. */
  datatype Target = Texture2D | CubeMap

  datatype Command =
    | ActiveTexture(unit: nat)                 // glActiveTexture(GL_TEXTURE0 + unit)
    | BindTexture(target: Target, texture: nat) // glBindTexture(target, texture)
    | DrawArrays(first: nat, count: nat)        // glDrawArrays(GL_TRIANGLES, first, count)

  type Bindings = map<(nat, Target), nat>

  datatype State = State(active: nat, bound: Bindings)

  /** One draw call and the texture bindings visible to it. */
  datatype Draw = Draw(first: nat, count: nat, bound: Bindings)

  datatype Trace = Trace(final: State, draws: seq<Draw>)

  function Step(s: State, c: Command): State {
    match c
    case ActiveTexture(u) => s.(active := u)
    case BindTexture(t, tex) => s.(bound := s.bound[(s.active, t) := tex])
    case DrawArrays(_, _) => s
  }

  function Issued(s: State, c: Command): seq<Draw> {
    if c.DrawArrays? then [Draw(c.first, c.count, s.bound)] else []
  }

  /** Replays a log from state `s`. */
  function Run(s: State, cmds: seq<Command>): Trace
    decreases |cmds|
  {
    if cmds == [] then Trace(s, [])
    else
      var rest := Run(Step(s, cmds[0]), cmds[1..]);
      Trace(rest.final, Issued(s, cmds[0]) + rest.draws)
  }

  /** One step of `Run`, spelled out for logs built by concatenation. */
  lemma RunCons(s: State, c: Command, rest: seq<Command>)
    ensures Run(s, [c] + rest)
            == Trace(Run(Step(s, c), rest).final, Issued(s, c) + Run(Step(s, c), rest).draws)
  {
    assert ([c] + rest)[0] == c;
    assert ([c] + rest)[1..] == rest;
  }

  /** Number of draw calls in a log. */
  function DrawCount(cmds: seq<Command>): nat
    decreases |cmds|
  {
    if cmds == [] then 0 else (if cmds[0].DrawArrays? then 1 else 0) + DrawCount(cmds[1..])
  }

  predicate BindsNoTexture(cmds: seq<Command>) {
    forall i :: 0 <= i < |cmds| ==> !cmds[i].BindTexture?
  }

  /**
    Replaying two logs one after the other is replaying their
    concatenation: the draws of the second log see the bindings the first
    log left behind.
   */
  lemma {:induction false} RunAppend(s: State, a: seq<Command>, b: seq<Command>)
    ensures Run(s, a + b).final == Run(Run(s, a).final, b).final
    ensures Run(s, a + b).draws == Run(s, a).draws + Run(Run(s, a).final, b).draws
    decreases |a|
  {
    if a == [] {
      assert a + b == b;
    } else {
      assert (a + b)[0] == a[0];
      assert (a + b)[1..] == a[1..] + b;
      RunAppend(Step(s, a[0]), a[1..], b);
    }
  }

  /**
    Every draw call of a log is recorded exactly once, and a log that binds
    no texture leaves the texture bindings as it found them, so each of its
    draws sees the bindings it started with.
   */
  lemma {:induction false} RunWithoutBinds(s: State, cmds: seq<Command>)
    ensures |Run(s, cmds).draws| == DrawCount(cmds)
    ensures BindsNoTexture(cmds) ==> Run(s, cmds).final.bound == s.bound
    ensures BindsNoTexture(cmds) ==>
              forall i :: 0 <= i < |Run(s, cmds).draws| ==> Run(s, cmds).draws[i].bound == s.bound
    decreases |cmds|
  {
    if cmds != [] {
      RunWithoutBinds(Step(s, cmds[0]), cmds[1..]);
      if BindsNoTexture(cmds) {
        assert !cmds[0].BindTexture?;
        assert BindsNoTexture(cmds[1..]) by {
          forall i | 0 <= i < |cmds[1..]|
            ensures !cmds[1..][i].BindTexture?
          {
            assert cmds[1..][i] == cmds[i + 1];
          }
        }
      }
    }
  }
}

=== FILE: Input.dfy ===
/**
  The two small state machines of the main program's input handling: the
  debounced key toggles (shadows on SPACE, light following on P) and the
  cursor-offset rule of the mouse callback.
 */
module Input {

  /** What `glfwGetKey` reports for a key. */
  datatype KeyState = Pressed | Released

  /**
    A toggled flag and its debounce latch: `on` is the flag, `held` records
    that the key press which last flipped it has not been released yet.
   */
  datatype Latch = Latch(on: bool, held: bool)

  /**
    One poll of the toggle key.  A press flips the flag only when the latch
    is clear, and sets the latch; a release clears the latch; a press while
    latched changes nothing.
   */
  function Toggle(l: Latch, key: KeyState): (r: Latch)
    ensures key == Pressed && !l.held ==> r.on == !l.on && r.held
    ensures key == Pressed && l.held ==> r == l
    ensures key == Released ==> r.on == l.on && !r.held
  {
    var afterPress := if key == Pressed && !l.held then Latch(!l.on, true) else l;
    if key == Released then afterPress.(held := false) else afterPress
  }

  /** Polls the key once per frame, for every state in `keys`, in order. */
  function ToggleAll(l: Latch, keys: seq<KeyState>): Latch
    decreases |keys|
  {
    if keys == [] then l else Toggle(ToggleAll(l, keys[..|keys| - 1]), keys[|keys| - 1])
  }

  /** Whether the key was down at the last poll of `keys` (`held` before any poll). */
  function WasDown(held: bool, keys: seq<KeyState>): bool {
    if keys == [] then held else keys[|keys| - 1] == Pressed
  }

  /**
    The number of rising edges in `keys`: polls that see the key down when
    the poll before did not (the first poll compares against `held`).
   */
  function RisingEdges(held: bool, keys: seq<KeyState>): nat
    decreases |keys|
  {
    if keys == [] then 0
    else
      var before := keys[..|keys| - 1];
      RisingEdges(held, before)
      + (if keys[|keys| - 1] == Pressed && !WasDown(held, before) then 1 else 0)
  }

  /**
    Whatever the sequence of polls: the latch ends up telling whether the
    key was down at the last poll, and the flag has flipped once per rising
    edge, so it differs from where it started exactly when the number of
    rising edges is odd.  Holding a key down for many frames counts once.
   */
  lemma {:induction false} ToggleCountsRisingEdges(l: Latch, keys: seq<KeyState>)
    ensures ToggleAll(l, keys).held == WasDown(l.held, keys)
    ensures ToggleAll(l, keys).on == (l.on != (RisingEdges(l.held, keys) % 2 == 1))
    decreases |keys|
  {
    if keys != [] {
      ToggleCountsRisingEdges(l, keys[..|keys| - 1]);
    }
  }

  /** `n` consecutive polls that see the key down. */
  function HeldFor(n: nat): (r: seq<KeyState>)
    ensures |r| == n
    ensures forall i :: 0 <= i < n ==> r[i] == Pressed
  {
    seq(n, _ => Pressed)
  }

  /** Holding a key down from an unlatched state flips the flag on the first poll only. */
  lemma {:induction false} HoldingFlipsOnce(l: Latch, n: nat)
    requires !l.held && n >= 1
    ensures ToggleAll(l, HeldFor(n)) == Latch(!l.on, true)
    decreases n
  {
    var keys := HeldFor(n);
    if n == 1 {
      assert keys[..0] == [];
    } else {
      assert keys[..n - 1] == HeldFor(n - 1);
      HoldingFlipsOnce(l, n - 1);
    }
  }

  /**
    A press held for any number of frames and then released flips the flag
    exactly once and leaves the latch clear, ready for the next press.
   */
  lemma PressHoldRelease(l: Latch, n: nat)
    requires !l.held && n >= 1
    ensures ToggleAll(l, HeldFor(n) + [Released]) == Latch(!l.on, false)
  {
    var keys := HeldFor(n) + [Released];
    assert keys[..|keys| - 1] == HeldFor(n);
    HoldingFlipsOnce(l, n);
  }

  /** The cursor state of the mouse callback. */
  datatype Mouse = Mouse(lastX: real, lastY: real, firstMouse: bool)

  /** Before any cursor event: the screen centre, waiting for the first event. */
  const InitialMouse := Mouse(1280.0 / 2.0, 720.0 / 2.0, true)

  /** The offsets one cursor event yields and the state it leaves. */
  datatype MouseMoved = MouseMoved(mouse: Mouse, xOffset: real, yOffset: real)

  /**
    `mouse_callback` up to the camera call: the first event only records
    the cursor (so its offsets are zero); every event yields the motion
    since the last one, with `y` reversed because window coordinates grow
    downwards, and records the cursor.
   */
  function MouseMove(m: Mouse, xpos: real, ypos: real): (r: MouseMoved)
    ensures r.mouse == Mouse(xpos, ypos, false)
    ensures m.firstMouse ==> r.xOffset == 0.0 && r.yOffset == 0.0
    ensures !m.firstMouse ==> r.xOffset == xpos - m.lastX && r.yOffset == m.lastY - ypos
  {
    var last := if m.firstMouse then Mouse(xpos, ypos, false) else m;
    MouseMoved(Mouse(xpos, ypos, false), xpos - last.lastX, last.lastY - ypos)
  }

  datatype Cursor = Cursor(x: real, y: real)

  /** The result of a run of cursor events: the final state and the summed offsets. */
  datatype Drag = Drag(mouse: Mouse, totalX: real, totalY: real)

  /** Feeds the cursor events in order, summing the offsets they yield. */
  function MouseMoveAll(m: Mouse, events: seq<Cursor>): Drag
    decreases |events|
  {
    if events == [] then Drag(m, 0.0, 0.0)
    else
      var before := MouseMoveAll(m, events[..|events| - 1]);
      var e := events[|events| - 1];
      var step := MouseMove(before.mouse, e.x, e.y);
      Drag(step.mouse, before.totalX + step.xOffset, before.totalY + step.yOffset)
  }

  /**
    The offsets of a run of events telescope: they add up to the motion
    from the starting point (the recorded cursor, or the first event if
    none was recorded yet) to the last event.  After any event the
    first-event branch is never taken again.
   */
  lemma {:induction false} OffsetsTelescope(m: Mouse, events: seq<Cursor>)
    requires |events| >= 1
    ensures MouseMoveAll(m, events).mouse == Mouse(events[|events| - 1].x, events[|events| - 1].y, false)
    ensures MouseMoveAll(m, events).totalX
            == events[|events| - 1].x - (if m.firstMouse then events[0].x else m.lastX)
    ensures MouseMoveAll(m, events).totalY
            == (if m.firstMouse then events[0].y else m.lastY) - events[|events| - 1].y
    decreases |events|
  {
    var n := |events|;
    if n == 1 {
      assert events[..0] == [];
    } else {
      var before := events[..n - 1];
      OffsetsTelescope(m, before);
      assert before[0] == events[0];
    }
  }
}

=== FILE: Matrices.dfy ===
/**
  Column-major 4x4 matrices over `real`, following the conventions of
  `glm::mat4`: `m[c]` is column `c`, a point is `(x, y, z, 1)` and a
  direction is `(x, y, z, 0)`.  `Translate` and `Scale` are written the way
  glm's `translate(m, v)` and `scale(m, v)` compute them (column updates),
  and are then proved equal to right-multiplication by the textbook
  translation and scale matrices.
 */
module Matrices {
  import opened Vectors

  datatype Vec4 = Vec4(x: real, y: real, z: real, w: real)

  datatype Mat4 = Mat4(c0: Vec4, c1: Vec4, c2: Vec4, c3: Vec4)

  /** A position in homogeneous coordinates. */
  function Point(v: Vec3): Vec4 {
    Vec4(v.x, v.y, v.z, 1.0)
  }

  /** A direction (no translation applies) in homogeneous coordinates. */
  function Direction(v: Vec3): Vec4 {
    Vec4(v.x, v.y, v.z, 0.0)
  }

  function Add4(a: Vec4, b: Vec4): Vec4 {
    Vec4(a.x + b.x, a.y + b.y, a.z + b.z, a.w + b.w)
  }

  function Scale4(a: Vec4, k: real): Vec4 {
    Vec4(a.x * k, a.y * k, a.z * k, a.w * k)
  }

  /** `glm::mat4(1.0f)` */
  const Identity := Mat4(Vec4(1.0, 0.0, 0.0, 0.0), Vec4(0.0, 1.0, 0.0, 0.0),
                         Vec4(0.0, 0.0, 1.0, 0.0), Vec4(0.0, 0.0, 0.0, 1.0))

  /** Matrix times column vector: a linear combination of the columns. */
  function Apply(m: Mat4, v: Vec4): Vec4 {
    Add4(Add4(Scale4(m.c0, v.x), Scale4(m.c1, v.y)), Add4(Scale4(m.c2, v.z), Scale4(m.c3, v.w)))
  }

  /** Matrix product `a * b`, column by column. */
  function Mul(a: Mat4, b: Mat4): Mat4 {
    Mat4(Apply(a, b.c0), Apply(a, b.c1), Apply(a, b.c2), Apply(a, b.c3))
  }

  /** The textbook translation matrix. */
  function TranslationMatrix(v: Vec3): Mat4 {
    Mat4(Vec4(1.0, 0.0, 0.0, 0.0), Vec4(0.0, 1.0, 0.0, 0.0),
         Vec4(0.0, 0.0, 1.0, 0.0), Vec4(v.x, v.y, v.z, 1.0))
  }

  /** The textbook scale matrix. */
  function ScaleMatrix(v: Vec3): Mat4 {
    Mat4(Vec4(v.x, 0.0, 0.0, 0.0), Vec4(0.0, v.y, 0.0, 0.0),
         Vec4(0.0, 0.0, v.z, 0.0), Vec4(0.0, 0.0, 0.0, 1.0))
  }

  /** `glm::translate(m, v)`: only the last column changes. */
  function Translate(m: Mat4, v: Vec3): Mat4 {
    Mat4(m.c0, m.c1, m.c2,
         Add4(Add4(Scale4(m.c0, v.x), Scale4(m.c1, v.y)), Add4(Scale4(m.c2, v.z), m.c3)))
  }

  /** `glm::scale(m, v)`: the first three columns are scaled. */
  function Scale(m: Mat4, v: Vec3): Mat4 {
    Mat4(Scale4(m.c0, v.x), Scale4(m.c1, v.y), Scale4(m.c2, v.z), m.c3)
  }

  const Zero4 := Vec4(0.0, 0.0, 0.0, 0.0)

  lemma Scale4Unit(a: Vec4)
    ensures Scale4(a, 1.0) == a
    ensures Scale4(a, 0.0) == Zero4
    ensures Add4(a, Zero4) == a && Add4(Zero4, a) == a
  {
  }

  /** Applying a matrix to a unit basis vector selects one of its columns. */
  lemma ApplyBasis(m: Mat4)
    ensures Apply(m, Vec4(1.0, 0.0, 0.0, 0.0)) == m.c0
    ensures Apply(m, Vec4(0.0, 1.0, 0.0, 0.0)) == m.c1
    ensures Apply(m, Vec4(0.0, 0.0, 1.0, 0.0)) == m.c2
    ensures Apply(m, Vec4(0.0, 0.0, 0.0, 1.0)) == m.c3
  {
    Scale4Unit(m.c0);
    Scale4Unit(m.c1);
    Scale4Unit(m.c2);
    Scale4Unit(m.c3);
  }

  /** glm's `translate(m, v)` post-multiplies `m` by the translation matrix. */
  lemma TranslateIsProduct(m: Mat4, v: Vec3)
    ensures Translate(m, v) == Mul(m, TranslationMatrix(v))
  {
    ApplyBasis(m);
    Scale4Unit(m.c3);
  }

  /** glm's `scale(m, v)` post-multiplies `m` by the scale matrix. */
  lemma ScaleIsProduct(m: Mat4, v: Vec3)
    ensures Scale(m, v) == Mul(m, ScaleMatrix(v))
  {
    ApplyBasis(m);
    Scale4Unit(m.c0);
    Scale4Unit(m.c1);
    Scale4Unit(m.c2);
    Scale4Unit(m.c3);
  }

  /**
    `glm::mat4(glm::mat3(m))`: keep the upper-left 3x3 block and reset the
    rest to the identity, so that the translation part is dropped.
   */
  function StripTranslation(m: Mat4): Mat4 {
    Mat4(Vec4(m.c0.x, m.c0.y, m.c0.z, 0.0), Vec4(m.c1.x, m.c1.y, m.c1.z, 0.0),
         Vec4(m.c2.x, m.c2.y, m.c2.z, 0.0), Vec4(0.0, 0.0, 0.0, 1.0))
  }

  /**
    The stripped matrix keeps the origin fixed, and on an affine matrix
    (bottom row 0 0 0 1 in the first three columns) it acts on directions
    exactly as the original does: only the translation is lost.
   */
  lemma StripTranslationKeepsDirections(m: Mat4, d: Vec3)
    requires m.c0.w == 0.0 && m.c1.w == 0.0 && m.c2.w == 0.0
    ensures Apply(StripTranslation(m), Point(Zero)) == Point(Zero)
    ensures Apply(StripTranslation(m), Direction(d)) == Apply(m, Direction(d))
  {
    var r := StripTranslation(m);
    assert r.c0 == m.c0 && r.c1 == m.c1 && r.c2 == m.c2;
    Scale4Unit(r.c0);
    Scale4Unit(r.c1);
    Scale4Unit(r.c2);
    Scale4Unit(r.c3);
    Scale4Unit(m.c3);
    assert Apply(r, Point(Zero)) == Scale4(r.c3, 1.0);
  }

  /**
    Moving the eye (any extra translation composed into the view) does not
    change the stripped matrix, and stripping twice is stripping once.
   */
  lemma StripTranslationIgnoresTranslation(m: Mat4, v: Vec3)
    ensures StripTranslation(Translate(m, v)) == StripTranslation(m)
    ensures StripTranslation(StripTranslation(m)) == StripTranslation(m)
  {
    var t := Translate(m, v);
    assert t.c0 == m.c0 && t.c1 == m.c1 && t.c2 == m.c2;
  }
}

=== FILE: Options.dfy ===
/** An optional value, for results the source leaves unassigned. */
module Options {

  datatype Option<+T> = None | Some(value: T)
}

=== FILE: Room.dfy ===
/**
  The room: a cube seen from the inside, drawn from one fixed array of 36
  vertices (position, normal, texture coordinate; eight floats each) with
  the walls in the first 24 vertices and the floor and ceiling in the last
  12.  It owns an ordered list of texture names; the order in which they
  were loaded decides the texture unit each one is bound to.
 */
module Room {
  import opened Options
  import opened Vectors
  import opened Transforms
  import opened Gl

  // ----- Vertex layout -----------------------------------------------------

  /** One interleaved vertex: position, normal, texture coordinate. */
  datatype Vertex = V(px: real, py: real, pz: real, nx: real, ny: real, nz: real, s: real, t: real)

  function Position(v: Vertex): Vec3 { Vec3(v.px, v.py, v.pz) }

  function Normal(v: Vertex): Vec3 { Vec3(v.nx, v.ny, v.nz) }

  /** Floats per vertex (`8 * sizeof(float)` bytes). */
  const Stride: nat := 8

  /** A `glVertexAttribPointer` call: location, component count, offset in floats. */
  datatype Attribute = Attribute(location: nat, size: nat, offset: nat)

  const PositionAttribute := Attribute(0, 3, 0)
  const NormalAttribute := Attribute(1, 3, 3)
  const TexCoordAttribute := Attribute(2, 2, 6)

  /** The eight floats of a vertex, in array order. */
  function Components(v: Vertex): (r: seq<real>)
    ensures |r| == Stride
  {
    [v.px, v.py, v.pz, v.nx, v.ny, v.nz, v.s, v.t]
  }

  /** The float array handed to `glBufferData`: the vertices laid end to end. */
  function Flatten(vs: seq<Vertex>): seq<real>
    decreases |vs|
  {
    if vs == [] then [] else Components(vs[0]) + Flatten(vs[1..])
  }

  /**
    Reads vertex `i` of a float array through the three attribute
    pointers: each attribute starts `offset` floats into the vertex's
    `Stride`-float slot.
   */
  function ReadVertex(data: seq<real>, i: nat): Vertex
    requires (i + 1) * Stride <= |data|
  {
    var b := i * Stride;
    var p, n, uv := b + PositionAttribute.offset, b + NormalAttribute.offset, b + TexCoordAttribute.offset;
    V(data[p], data[p + 1], data[p + 2], data[n], data[n + 1], data[n + 2], data[uv], data[uv + 1])
  }

  /**
    The three attributes tile the stride: positions at 0..3, normals at
    3..6, texture coordinates at 6..8, with nothing left over.
   */
  lemma AttributesTileStride()
    ensures PositionAttribute.offset == 0
    ensures NormalAttribute.offset == PositionAttribute.offset + PositionAttribute.size
    ensures TexCoordAttribute.offset == NormalAttribute.offset + NormalAttribute.size
    ensures TexCoordAttribute.offset + TexCoordAttribute.size == Stride
  {
  }

  /** Element `Stride * i + k` of the flattened array is component `k` of vertex `i`. */
  lemma {:induction false} FlattenLayout(vs: seq<Vertex>, i: nat, k: nat)
    requires i < |vs| && k < Stride
    ensures |Flatten(vs)| == Stride * |vs|
    ensures Flatten(vs)[Stride * i + k] == Components(vs[i])[k]
    decreases |vs|
  {
    FlattenLength(vs[1..]);
    if i > 0 {
      FlattenLayout(vs[1..], i - 1, k);
      assert Flatten(vs)[Stride * i + k] == Flatten(vs[1..])[Stride * (i - 1) + k];
    }
  }

  lemma {:induction false} FlattenLength(vs: seq<Vertex>)
    ensures |Flatten(vs)| == Stride * |vs|
    decreases |vs|
  {
    if vs != [] {
      FlattenLength(vs[1..]);
    }
  }

  /** Reading a flattened array back through the attribute layout gives the vertices. */
  lemma ReadFlattenRoundTrip(vs: seq<Vertex>, i: nat)
    requires i < |vs|
    ensures (i + 1) * Stride <= |Flatten(vs)|
    ensures ReadVertex(Flatten(vs), i) == vs[i]
  {
    FlattenLength(vs);
    var d, b, c := Flatten(vs), i * Stride, Components(vs[i]);
    assert Stride * i == b;
    FlattenLayout(vs, i, 0);
    FlattenLayout(vs, i, 1);
    FlattenLayout(vs, i, 2);
    FlattenLayout(vs, i, 3);
    FlattenLayout(vs, i, 4);
    FlattenLayout(vs, i, 5);
    FlattenLayout(vs, i, 6);
    FlattenLayout(vs, i, 7);
    assert d[b] == c[0] && d[b + 1] == c[1] && d[b + 2] == c[2] && d[b + 3] == c[3];
    assert d[b + 4] == c[4] && d[b + 5] == c[5] && d[b + 6] == c[6] && d[b + 7] == c[7];
  }

  /** The room's vertices, six per face, as listed in the constructor. */
  const RoomVertices: seq<Vertex> := [
    // Front
    V(-1.0, -1.0,  1.0,  0.0,  0.0, -1.0, 0.0, 0.0),
    V( 1.0,  1.0,  1.0,  0.0,  0.0, -1.0, 5.0, 5.0),
    V( 1.0, -1.0,  1.0,  0.0,  0.0, -1.0, 5.0, 0.0),
    V( 1.0,  1.0,  1.0,  0.0,  0.0, -1.0, 5.0, 5.0),
    V(-1.0, -1.0,  1.0,  0.0,  0.0, -1.0, 0.0, 0.0),
    V(-1.0,  1.0,  1.0,  0.0,  0.0, -1.0, 0.0, 5.0),
    // Back wall
    V(-1.0, -1.0, -1.0,  0.0,  0.0,  1.0, 0.0, 0.0),
    V( 1.0, -1.0, -1.0,  0.0,  0.0,  1.0, 1.0, 0.0),
    V( 1.0,  1.0, -1.0,  0.0,  0.0,  1.0, 1.0, 1.0),
    V( 1.0,  1.0, -1.0,  0.0,  0.0,  1.0, 1.0, 1.0),
    V(-1.0,  1.0, -1.0,  0.0,  0.0,  1.0, 0.0, 1.0),
    V(-1.0, -1.0, -1.0,  0.0,  0.0,  1.0, 0.0, 0.0),
    // Right wall
    V( 1.0,  1.0,  1.0, -1.0,  0.0,  0.0, 1.0, 0.0),
    V( 1.0,  1.0, -1.0, -1.0,  0.0,  0.0, 1.0, 1.0),
    V( 1.0, -1.0, -1.0, -1.0,  0.0,  0.0, 0.0, 1.0),
    V( 1.0, -1.0, -1.0, -1.0,  0.0,  0.0, 0.0, 1.0),
    V( 1.0, -1.0,  1.0, -1.0,  0.0,  0.0, 0.0, 0.0),
    V( 1.0,  1.0,  1.0, -1.0,  0.0,  0.0, 1.0, 0.0),
    // Left wall
    V(-1.0,  1.0,  1.0,  1.0,  0.0,  0.0, 1.0, 0.0),
    V(-1.0, -1.0, -1.0,  1.0,  0.0,  0.0, 0.0, 1.0),
    V(-1.0,  1.0, -1.0,  1.0,  0.0,  0.0, 1.0, 1.0),
    V(-1.0, -1.0, -1.0,  1.0,  0.0,  0.0, 0.0, 1.0),
    V(-1.0,  1.0,  1.0,  1.0,  0.0,  0.0, 1.0, 0.0),
    V(-1.0, -1.0,  1.0,  1.0,  0.0,  0.0, 0.0, 0.0),
    // Ceiling
    V(-1.0,  1.0, -1.0,  0.0, -1.0,  0.0, 0.0, 1.0),
    V( 1.0,  1.0, -1.0,  0.0, -1.0,  0.0, 1.0, 1.0),
    V( 1.0,  1.0,  1.0,  0.0, -1.0,  0.0, 1.0, 0.0),
    V( 1.0,  1.0,  1.0,  0.0, -1.0,  0.0, 1.0, 0.0),
    V(-1.0,  1.0,  1.0,  0.0, -1.0,  0.0, 0.0, 0.0),
    V(-1.0,  1.0, -1.0,  0.0, -1.0,  0.0, 0.0, 1.0),
    // Floor
    V(-1.0, -1.0, -1.0,  0.0,  1.0,  0.0, 0.0, 1.0),
    V( 1.0, -1.0, 1.0,  0.0,  1.0,  0.0, 1.0, 0.0),
    V( 1.0, -1.0, -1.0,  0.0,  1.0,  0.0, 1.0, 1.0),
    V( 1.0, -1.0,  1.0,  0.0,  1.0,  0.0, 1.0, 0.0),
    V(-1.0, -1.0, -1.0,  0.0,  1.0,  0.0, 0.0, 1.0),
    V(-1.0, -1.0,  1.0,  0.0,  1.0,  0.0, 0.0, 0.0)
  ]

  /** `cubings`: the 288 floats uploaded to the vertex buffer. */
  function VertexData(): (r: seq<real>)
    ensures |r| == |RoomVertices| * Stride
  {
    FlattenLength(RoomVertices);
    Flatten(RoomVertices)
  }

  predicate IsUnit(r: real) { r == 1.0 || r == -1.0 }

  /**
    Every vertex is a corner of the cube `[-1, 1]^3` and its normal points
    into the room: the normal is minus the unit vector of the face the
    vertex lies on, so `normal . position == -1`.
   */
  lemma NormalsPointInward()
    ensures |RoomVertices| == 36
    ensures forall i :: 0 <= i < |RoomVertices| ==>
              IsUnit(RoomVertices[i].px) && IsUnit(RoomVertices[i].py) && IsUnit(RoomVertices[i].pz)
    ensures forall i :: 0 <= i < |RoomVertices| ==>
              Dot(Normal(RoomVertices[i]), Position(RoomVertices[i])) == -1.0
  {
  }

  // ----- Draw ranges -------------------------------------------------------

  datatype VertexRange = VertexRange(first: nat, count: nat)

  predicate InRange(r: VertexRange, i: nat) {
    r.first <= i < r.first + r.count
  }

  /** `draw`: the whole array. */
  const WholeRange := VertexRange(0, 36)
  /** `drawWalls`: the four walls. */
  const WallsRange := VertexRange(0, 24)
  /** `drawFloorCeiling`: ceiling and floor. */
  const FloorCeilingRange := VertexRange(24, 12)

  /**
    The walls and the floor/ceiling ranges do not overlap and together are
    exactly the range `draw` renders, which is the whole vertex array.
   */
  lemma RangesPartitionRoom()
    ensures forall i: nat :: !(InRange(WallsRange, i) && InRange(FloorCeilingRange, i))
    ensures forall i: nat :: InRange(WholeRange, i) <==> InRange(WallsRange, i) || InRange(FloorCeilingRange, i)
    ensures WholeRange.first == 0 && WholeRange.count == |RoomVertices|
  {
  }

  /**
    The partition follows the geometry: wall vertices have horizontal
    normals, floor and ceiling vertices vertical ones.
   */
  lemma RangesFollowNormals()
    ensures forall i :: 0 <= i < 24 ==> RoomVertices[i].ny == 0.0
    ensures forall i :: 24 <= i < 36 ==> RoomVertices[i].nx == 0.0 && RoomVertices[i].nz == 0.0
                                          && RoomVertices[i].ny != 0.0
  {
  }

  // ----- The room object ---------------------------------------------------

  /** A room: its placement, its vertex array object and its textures in load order. */
  datatype Room = Room(transform: Transform, vao: nat, textures: seq<nat>)

  /**
    The constructor: a fresh transform, the vertex array object GL named
    `vao`, and no textures yet.
   */
  function NewRoom(vao: nat, rotation: Vec3): (r: Room)
    ensures r.textures == []
    ensures r.transform.position == Zero && r.transform.scale == One
  {
    Room(Fresh(rotation), vao, [])
  }

  /**
    `draw`: all 36 vertices, then unit 0 is made active again.  The source
    binds `room`'s vertex array first; vertex-array bindings are not part of
    the command log, so the commands do not depend on `room`.
   */
  function Draw(room: Room): seq<Command> {
    [DrawArrays(WholeRange.first, WholeRange.count), ActiveTexture(0)]
  }

  /** `drawWalls`: vertices 0..24, then unit 0 (the vertex-array bind is not logged). */
  function DrawWalls(room: Room): seq<Command> {
    [DrawArrays(WallsRange.first, WallsRange.count), ActiveTexture(0)]
  }

  /** `drawFloorCeiling`: vertices 24..36, then unit 0 (the vertex-array bind is not logged). */
  function DrawFloorCeiling(room: Room): seq<Command> {
    [DrawArrays(FloorCeilingRange.first, FloorCeilingRange.count), ActiveTexture(0)]
  }

  /** The untextured draw issues one draw of the whole room and binds nothing. */
  lemma DrawIsOneUntexturedDraw(room: Room, s: State)
    ensures BindsNoTexture(Draw(room))
    ensures Run(s, Draw(room)).draws == [Gl.Draw(0, 36, s.bound)]
  {
    var cmds := Draw(room);
    assert Run(s, cmds[1..]).draws == [];
  }

  /** `glActiveTexture(GL_TEXTURE0 + unit); glBindTexture(target, tex);` */
  function BindUnit(unit: nat, target: Target, tex: nat): seq<Command> {
    [ActiveTexture(unit), BindTexture(target, tex)]
  }

  /**
    `bindTextures`: textured drawing.  The walls get the first two loaded
    textures and the shadow cube map, floor and ceiling the third texture
    and the cube map.  The first three loaded textures are read
    unconditionally, so at least three loads must have succeeded.
   */
  function BindTextures(room: Room, shadowCubemap: nat): seq<Command>
    requires |room.textures| >= 3
  {
    BindUnit(0, Texture2D, room.textures[0]) + BindUnit(1, Texture2D, room.textures[1])
    + BindUnit(2, CubeMap, shadowCubemap) + DrawWalls(room)
    + BindUnit(0, Texture2D, room.textures[2]) + BindUnit(1, CubeMap, shadowCubemap)
    + DrawFloorCeiling(room)
  }

  /** Draw `d` sees texture `tex` on `target` of texture unit `unit`. */
  predicate Sees(d: Gl.Draw, unit: nat, target: Target, tex: nat) {
    (unit, target) in d.bound && d.bound[(unit, target)] == tex
  }

  lemma RunBindUnit(unit: nat, target: Target, tex: nat, s: State)
    ensures Run(s, BindUnit(unit, target, tex)).draws == []
    ensures Run(s, BindUnit(unit, target, tex)).final == State(unit, s.bound[(unit, target) := tex])
  {
    var c := BindUnit(unit, target, tex);
    assert c == [c[0]] + ([c[1]] + []);
    RunCons(s, c[0], [c[1]] + []);
    RunCons(Step(s, c[0]), c[1], []);
  }

  /** Each of the small draw sequences issues its range and reactivates unit 0. */
  lemma RunRangeDraw(cmds: seq<Command>, r: VertexRange, s: State)
    requires cmds == [DrawArrays(r.first, r.count), ActiveTexture(0)]
    ensures Run(s, cmds).draws == [Gl.Draw(r.first, r.count, s.bound)]
    ensures Run(s, cmds).final == s.(active := 0)
  {
    assert cmds == [cmds[0]] + ([cmds[1]] + []);
    RunCons(s, cmds[0], [cmds[1]] + []);
    RunCons(Step(s, cmds[0]), cmds[1], []);
  }

  /**
    What `bindTextures` binds where.  The walls (vertices 0..24) are drawn
    with the first texture on unit 0, the second on unit 1 and the shadow
    cube map on unit 2; floor and ceiling (vertices 24..36) with the third
    texture on unit 0 and the shadow cube map on unit 1.  Together the two
    draws cover the whole room once, and unit 0 is active afterwards.
    Every other (unit, target) pair keeps the binding it had before: the
    walls see exactly the incoming bindings with their three updates, floor
    and ceiling those with two more, and that is what is left bound.
   */
  lemma BindTexturesUnits(room: Room, shadowCubemap: nat, s: State)
    requires |room.textures| >= 3
    ensures |Run(s, BindTextures(room, shadowCubemap)).draws| == 2
    ensures var d := Run(s, BindTextures(room, shadowCubemap)).draws[0];
            && d.first == WallsRange.first && d.count == WallsRange.count
            && Sees(d, 0, Texture2D, room.textures[0])
            && Sees(d, 1, Texture2D, room.textures[1])
            && Sees(d, 2, CubeMap, shadowCubemap)
    ensures var d := Run(s, BindTextures(room, shadowCubemap)).draws[1];
            && d.first == FloorCeilingRange.first && d.count == FloorCeilingRange.count
            && Sees(d, 0, Texture2D, room.textures[2])
            && Sees(d, 1, CubeMap, shadowCubemap)
    ensures Run(s, BindTextures(room, shadowCubemap)).final.active == 0
    ensures var t, cm := room.textures, shadowCubemap;
            var walls := s.bound[(0, Texture2D) := t[0]][(1, Texture2D) := t[1]][(2, CubeMap) := cm];
            var floor := walls[(0, Texture2D) := t[2]][(1, CubeMap) := cm];
            var run := Run(s, BindTextures(room, shadowCubemap));
            && run.draws[0].bound == walls
            && run.draws[1].bound == floor
            && run.final.bound == floor
  {
    var cm, t := shadowCubemap, room.textures;
    var a1, a2, a3 := BindUnit(0, Texture2D, t[0]), BindUnit(1, Texture2D, t[1]), BindUnit(2, CubeMap, cm);
    var w := DrawWalls(room);
    var b1, b2 := BindUnit(0, Texture2D, t[2]), BindUnit(1, CubeMap, cm);
    var f := DrawFloorCeiling(room);
    RunBindUnit(0, Texture2D, t[0], s);
    var s1 := Run(s, a1).final;
    RunBindUnit(1, Texture2D, t[1], s1);
    var s2 := Run(s1, a2).final;
    RunBindUnit(2, CubeMap, cm, s2);
    var s3 := Run(s2, a3).final;
    RunRangeDraw(w, WallsRange, s3);
    var s4 := Run(s3, w).final;
    RunBindUnit(0, Texture2D, t[2], s4);
    var s5 := Run(s4, b1).final;
    RunBindUnit(1, CubeMap, cm, s5);
    var s6 := Run(s5, b2).final;
    RunRangeDraw(f, FloorCeilingRange, s6);
    RunAppend(s, a1, a2);
    RunAppend(s, a1 + a2, a3);
    RunAppend(s, a1 + a2 + a3, w);
    RunAppend(s, a1 + a2 + a3 + w, b1);
    RunAppend(s, a1 + a2 + a3 + w + b1, b2);
    RunAppend(s, a1 + a2 + a3 + w + b1 + b2, f);
  }

  // ----- Texture loading ---------------------------------------------------

  /** Pixel formats passed to `glTexImage2D`. */
  datatype Format = Red | Rgb | Rgba

  /**
    The format chosen for a decoded image with `components` channels.  For
    any count other than 1, 3 or 4 the source leaves its `format` variable
    unassigned; that is `None` here.
   */
  function FormatFor(components: int): Option<Format> {
    if components == 1 then Some(Red)
    else if components == 3 then Some(Rgb)
    else if components == 4 then Some(Rgba)
    else None
  }

  /** The number of channels of each format. */
  function ChannelCount(f: Format): nat {
    match f
    case Red => 1
    case Rgb => 3
    case Rgba => 4
  }

  /**
    `FormatFor` is the inverse of `ChannelCount`: a count gets a format
    exactly when it is the channel count of one, and then of that one.
   */
  lemma FormatForInvertsChannelCount(f: Format, n: int)
    ensures FormatFor(ChannelCount(f)) == Some(f)
    ensures FormatFor(n) == Some(f) <==> n == ChannelCount(f)
    ensures FormatFor(n).Some? <==> n == 1 || n == 3 || n == 4
  {
  }

  /** A successful `stbi_load`: the image size and its channel count. */
  datatype Image = Image(width: nat, height: nat, components: int)

  /** The `glTexImage2D` call (followed by mipmap generation) for a decoded image. */
  datatype TextureUpload = TextureUpload(texture: nat, width: nat, height: nat, format: Option<Format>)

  datatype Loaded = Loaded(room: Room, upload: Option<TextureUpload>)

  /**
    `loadTexture`.  `name` is the texture name `glGenTextures` produced
    (it is generated before decoding, whatever the outcome); `decoded` is
    the outcome of `stbi_load`, `None` when decoding failed.  On success
    the image is uploaded and the name appended to the texture list; on
    failure nothing changes.
   */
  function LoadTexture(room: Room, name: nat, decoded: Option<Image>): (r: Loaded)
    ensures decoded.None? ==> r.room == room && r.upload.None?
    ensures decoded.Some? ==>
              && r.room.textures == room.textures + [name]
              && r.room.transform == room.transform && r.room.vao == room.vao
              && r.upload.Some? && r.upload.value.texture == name
              && r.upload.value.format == FormatFor(decoded.value.components)
  {
    match decoded
    case None => Loaded(room, None)
    case Some(img) =>
      var upload := TextureUpload(name, img.width, img.height, FormatFor(img.components));
      Loaded(room.(textures := room.textures + [name]), Some(upload))
  }

  /** One call of `loadTexture`: the generated name and the decoding outcome. */
  datatype Load = Load(name: nat, decoded: Option<Image>)

  /** A sequence of `loadTexture` calls, applied in order. */
  function LoadAll(room: Room, loads: seq<Load>): Room
    decreases |loads|
  {
    if loads == [] then room
    else
      var last := loads[|loads| - 1];
      LoadTexture(LoadAll(room, loads[..|loads| - 1]), last.name, last.decoded).room
  }

  /** The names of the loads whose image decoded, in call order. */
  function Decoded(loads: seq<Load>): seq<nat>
    decreases |loads|
  {
    if loads == [] then []
    else
      var last := loads[|loads| - 1];
      Decoded(loads[..|loads| - 1]) + (if last.decoded.Some? then [last.name] else [])
  }

  /**
    After any sequence of loads, the texture list is the old list followed
    by the names of exactly the loads that decoded, in call order; earlier
    entries never move.
   */
  lemma {:induction false} LoadAllAppendsDecoded(room: Room, loads: seq<Load>)
    ensures LoadAll(room, loads).textures == room.textures + Decoded(loads)
    ensures LoadAll(room, loads).transform == room.transform
    decreases |loads|
  {
    if loads != [] {
      var init := loads[..|loads| - 1];
      LoadAllAppendsDecoded(room, init);
    }
  }

  /**
    A texture unit has one binding per target, and binding a 2D texture to
    unit 1 for the walls does not touch unit 1's cube-map target.  So once
    a textured draw has bound the shadow cube map to unit 1 for floor and
    ceiling, the walls of every later textured draw (from the state that
    draw left, with no bind in between) also have it on unit 1, next to the
    second 2D texture.  Whether the walls see the cube map on unit 1 in the
    first textured draw depends only on what was bound there before.
   */
  lemma CubemapCarriesOverToWalls(room: Room, shadowCubemap: nat, s: State)
    requires |room.textures| >= 3
    ensures WallsSee(room, shadowCubemap, Run(s, BindTextures(room, shadowCubemap)).final,
                     1, CubeMap, shadowCubemap)
    ensures WallsSee(room, shadowCubemap, s, 1, CubeMap, shadowCubemap)
            <==> (1, CubeMap) in s.bound && s.bound[(1, CubeMap)] == shadowCubemap
  {
    BindTexturesUnits(room, shadowCubemap, s);
    BindTexturesUnits(room, shadowCubemap, Run(s, BindTextures(room, shadowCubemap)).final);
  }

  /** In the textured draw of `room`, the walls see `tex` on `target` of unit `unit`. */
  predicate WallsSee(room: Room, shadowCubemap: nat, s: State, unit: nat, target: Target, tex: nat)
    requires |room.textures| >= 3
  {
    var ds := Run(s, BindTextures(room, shadowCubemap)).draws;
    |ds| == 2 && Sees(ds[0], unit, target, tex)
  }

  /** In the textured draw of `room`, floor and ceiling see `tex` on `target` of unit `unit`. */
  predicate FloorCeilingSees(room: Room, shadowCubemap: nat, s: State, unit: nat, target: Target, tex: nat)
    requires |room.textures| >= 3
  {
    var ds := Run(s, BindTextures(room, shadowCubemap)).draws;
    |ds| == 2 && Sees(ds[1], unit, target, tex)
  }

  /**
    Loading textures A, B, C into an empty room and then drawing it textured
    puts A on unit 0 and B on unit 1 for the walls, and C on unit 0 for
    floor and ceiling.
   */
  lemma LoadOrderDecidesUnits(room: Room, a: nat, b: nat, c: nat, ia: Image, ib: Image, ic: Image,
                              shadowCubemap: nat, s: State)
    requires room.textures == []
    ensures var r := LoadAll(room, [Load(a, Some(ia)), Load(b, Some(ib)), Load(c, Some(ic))]);
            && r.textures == [a, b, c]
            && WallsSee(r, shadowCubemap, s, 0, Texture2D, a)
            && WallsSee(r, shadowCubemap, s, 1, Texture2D, b)
            && FloorCeilingSees(r, shadowCubemap, s, 0, Texture2D, c)
  {
    var loads := [Load(a, Some(ia)), Load(b, Some(ib)), Load(c, Some(ic))];
    LoadAllAppendsDecoded(room, loads);
    assert Decoded(loads[..1]) == [a] by {
      assert loads[..1][..0] == [];
    }
    assert Decoded(loads[..2]) == [a, b] by {
      assert loads[..2][..1] == loads[..1];
    }
    assert Decoded(loads) == [a, b, c] by {
      assert loads[..|loads| - 1] == loads[..2];
    }
    BindTexturesUnits(LoadAll(room, loads), shadowCubemap, s);
  }

  /**
    A failed decode shifts every later texture down one unit: if the first
    of four loads fails, the second image ends up on the walls' unit 0.
   */
  lemma FailedLoadShiftsUnits(room: Room, a: nat, b: nat, c: nat, d: nat, ib: Image, ic: Image, id: Image,
                              shadowCubemap: nat, s: State)
    requires room.textures == []
    ensures var r := LoadAll(room, [Load(a, None), Load(b, Some(ib)), Load(c, Some(ic)), Load(d, Some(id))]);
            && r.textures == [b, c, d]
            && WallsSee(r, shadowCubemap, s, 0, Texture2D, b)
  {
    var loads := [Load(a, None), Load(b, Some(ib)), Load(c, Some(ic)), Load(d, Some(id))];
    LoadAllAppendsDecoded(room, loads);
    assert Decoded(loads[..1]) == [] by {
      assert loads[..1][..0] == [];
    }
    assert Decoded(loads[..2]) == [b] by {
      assert loads[..2][..1] == loads[..1];
    }
    assert Decoded(loads[..3]) == [b, c] by {
      assert loads[..3][..2] == loads[..2];
    }
    assert Decoded(loads) == [b, c, d] by {
      assert loads[..|loads| - 1] == loads[..3];
    }
    BindTexturesUnits(LoadAll(room, loads), shadowCubemap, s);
  }
}

=== FILE: ShadowFbo.dfy ===
/**
  The point-light shadow target: a depth-only framebuffer with a depth cube
  map attached, and the six view-projection matrices, one per cube face,
  that render the scene into it from the light's position.

  The faces are indexed the way OpenGL numbers the cube-map face targets
  (`GL_TEXTURE_CUBE_MAP_POSITIVE_X + i`, in the order +X, -X, +Y, -Y, +Z,
  -Z), and the look direction and up vector of each face are checked
  against the cube-map face selection table of the OpenGL 4.6 Core Profile
  specification (section 8.13, Cube Map Texture Selection).
 */
module ShadowFbo {
  import opened Vectors
  import opened Views
  import opened Gl

  /** The side of every cube face, in texels (`resolution`). */
  const Resolution: nat := 2048

  /** `GL_TEXTURE_CUBE_MAP_POSITIVE_X` */
  const CubeMapPositiveX: int := 0x8515

  datatype Face = PositiveX | NegativeX | PositiveY | NegativeY | PositiveZ | NegativeZ

  /** The GL enum naming each face. */
  function FaceTarget(f: Face): int {
    match f
    case PositiveX => 0x8515
    case NegativeX => 0x8516
    case PositiveY => 0x8517
    case NegativeY => 0x8518
    case PositiveZ => 0x8519
    case NegativeZ => 0x851A
  }

  /** The face at layer `i` of a cube map. */
  function FaceAt(i: nat): (f: Face)
    requires i < 6
    ensures FaceTarget(f) == CubeMapPositiveX + i
  {
    match i
    case 0 => PositiveX
    case 1 => NegativeX
    case 2 => PositiveY
    case 3 => NegativeY
    case 4 => PositiveZ
    case 5 => NegativeZ
  }

  /** The layer of face `f`: the inverse of `FaceAt`. */
  function FaceIndex(f: Face): (i: nat)
    ensures i < 6 && FaceAt(i) == f
  {
    match f
    case PositiveX => 0
    case NegativeX => 1
    case PositiveY => 2
    case NegativeY => 3
    case PositiveZ => 4
    case NegativeZ => 5
  }

  /** The major axis of a face: the direction from the cube's centre through it. */
  function MajorAxis(f: Face): Vec3 {
    match f
    case PositiveX => Vec3(1.0, 0.0, 0.0)
    case NegativeX => Vec3(-1.0, 0.0, 0.0)
    case PositiveY => Vec3(0.0, 1.0, 0.0)
    case NegativeY => Vec3(0.0, -1.0, 0.0)
    case PositiveZ => Vec3(0.0, 0.0, 1.0)
    case NegativeZ => Vec3(0.0, 0.0, -1.0)
  }

  /**
    The direction in which the face's `s` texture coordinate grows, read
    off the `sc` column of the face selection table (for +X, `sc = -rz`).
   */
  function SAxis(f: Face): Vec3 {
    match f
    case PositiveX => Vec3(0.0, 0.0, -1.0)
    case NegativeX => Vec3(0.0, 0.0, 1.0)
    case PositiveY => Vec3(1.0, 0.0, 0.0)
    case NegativeY => Vec3(1.0, 0.0, 0.0)
    case PositiveZ => Vec3(1.0, 0.0, 0.0)
    case NegativeZ => Vec3(-1.0, 0.0, 0.0)
  }

  /** The direction in which the face's `t` coordinate grows (the `tc` column). */
  function TAxis(f: Face): Vec3 {
    match f
    case PositiveX => Vec3(0.0, -1.0, 0.0)
    case NegativeX => Vec3(0.0, -1.0, 0.0)
    case PositiveY => Vec3(0.0, 0.0, 1.0)
    case NegativeY => Vec3(0.0, 0.0, -1.0)
    case PositiveZ => Vec3(0.0, -1.0, 0.0)
    case NegativeZ => Vec3(0.0, -1.0, 0.0)
  }

  /**
    `vp` renders face `f` of a cube map centred on `light`: it looks from
    the light along the face's major axis, its up vector is the face's `t`
    axis, and it uses projection `proj`.
   */
  predicate RendersFace(vp: ViewProjection, f: Face, light: Vec3, proj: Perspective) {
    && vp.projection == proj
    && vp.view.eye == light
    && LookDirection(vp.view) == MajorAxis(f)
    && vp.view.up == TAxis(f)
  }

  /** The projection shared by all six faces: 90 degrees, square, given planes. */
  function FaceProjection(width: nat, height: nat, near: real, far: real): Perspective
    requires height > 0
  {
    Perspective(90.0, width as real / height as real, near, far)
  }

  /**
    The six face matrices for a light at `light`, in face order, as both
    the shadow target and the main loop build them: one shared projection
    times `lookAt(light, light + axis, up)` per face.
   */
  function CubeFaceTransforms(light: Vec3, width: nat, height: nat, near: real, far: real)
    : (r: seq<ViewProjection>)
    requires height > 0
    ensures |r| == 6
    ensures forall i :: 0 <= i < 6 ==> RendersFace(r[i], FaceAt(i), light, FaceProjection(width, height, near, far))
  {
    var proj := FaceProjection(width, height, near, far);
    [ ViewProjection(proj, LookAt(light, Add(light, Vec3(1.0, 0.0, 0.0)), Vec3(0.0, -1.0, 0.0))),
      ViewProjection(proj, LookAt(light, Add(light, Vec3(-1.0, 0.0, 0.0)), Vec3(0.0, -1.0, 0.0))),
      ViewProjection(proj, LookAt(light, Add(light, Vec3(0.0, 1.0, 0.0)), Vec3(0.0, 0.0, 1.0))),
      ViewProjection(proj, LookAt(light, Add(light, Vec3(0.0, -1.0, 0.0)), Vec3(0.0, 0.0, -1.0))),
      ViewProjection(proj, LookAt(light, Add(light, Vec3(0.0, 0.0, 1.0)), Vec3(0.0, -1.0, 0.0))),
      ViewProjection(proj, LookAt(light, Add(light, Vec3(0.0, 0.0, -1.0)), Vec3(0.0, -1.0, 0.0))) ]
  }

  /** Each face's up vector is perpendicular to its look direction. */
  lemma FaceUpIsPerpendicular(f: Face)
    ensures Dot(MajorAxis(f), TAxis(f)) == 0.0
  {
    match f
    case PositiveX =>
    case NegativeX =>
    case PositiveY =>
    case NegativeY =>
    case PositiveZ =>
    case NegativeZ =>
  }

  /**
    The camera's right-hand axis `look x up` of each face is the face's `s`
    axis (and its up vector the `t` axis): rendering with these views
    writes every face the way the cube-map lookup reads it.
   */
  lemma FaceRightIsSAxis(f: Face)
    ensures Cross(MajorAxis(f), TAxis(f)) == SAxis(f)
  {
    var m, t := MajorAxis(f), TAxis(f);
    match f
    case PositiveX => assert m == Vec3(1.0, 0.0, 0.0) && t == Vec3(0.0, -1.0, 0.0);
    case NegativeX => assert m == Vec3(-1.0, 0.0, 0.0) && t == Vec3(0.0, -1.0, 0.0);
    case PositiveY => assert m == Vec3(0.0, 1.0, 0.0) && t == Vec3(0.0, 0.0, 1.0);
    case NegativeY => assert m == Vec3(0.0, -1.0, 0.0) && t == Vec3(0.0, 0.0, -1.0);
    case PositiveZ => assert m == Vec3(0.0, 0.0, 1.0) && t == Vec3(0.0, -1.0, 0.0);
    case NegativeZ => assert m == Vec3(0.0, 0.0, -1.0) && t == Vec3(0.0, -1.0, 0.0);
  }

  /** One level-0 depth image of the cube map. */
  datatype FaceImage = FaceImage(target: int, width: nat, height: nat)

  /**
    The shadow target.  `faces` lists the cube-map images allocated by
    `configureFBO` (none before it runs); `fbo` and `depthCubemap` are the
    names GL handed out; `shadowTransforms` is the vector of face matrices.
   */
  datatype ShadowFbo = ShadowFbo(fbo: nat, depthCubemap: nat, faces: seq<FaceImage>,
                                 shadowTransforms: seq<ViewProjection>)

  /**
    `configureFBO`: allocates one `Resolution` x `Resolution` depth image
    per face, at target `GL_TEXTURE_CUBE_MAP_POSITIVE_X + i` for
    `i = 0 .. 5`, and records the names of the framebuffer and cube map
    (produced by `glGenFramebuffers` / `glGenTextures`, hence parameters).
   */
  method ConfigureFbo(f: ShadowFbo, fboName: nat, cubemapName: nat) returns (r: ShadowFbo)
    ensures r.fbo == fboName && r.depthCubemap == cubemapName
    ensures |r.faces| == 6
    ensures forall i :: 0 <= i < 6 ==>
              r.faces[i] == FaceImage(FaceTarget(FaceAt(i)), Resolution, Resolution)
    ensures forall g: Face :: r.faces[FaceIndex(g)].target == FaceTarget(g)
    ensures r.shadowTransforms == f.shadowTransforms
  {
    var faces: seq<FaceImage> := [];
    var i := 0;
    while i < 6
      invariant 0 <= i <= 6
      invariant |faces| == i
      invariant forall j :: 0 <= j < i ==> faces[j] == FaceImage(CubeMapPositiveX + j, Resolution, Resolution)
    {
      faces := faces + [FaceImage(CubeMapPositiveX + i, Resolution, Resolution)];
      i := i + 1;
    }
    r := ShadowFbo(fboName, cubemapName, faces, f.shadowTransforms);
  }

  /**
    `createCubemapTransformationMatrices`: clears the matrix vector, then
    pushes the six face matrices for the given light and planes.
   */
  function CreateCubemapTransformationMatrices(f: ShadowFbo, light: Vec3, near: real, far: real)
    : (r: ShadowFbo)
    ensures |r.shadowTransforms| == 6
    ensures forall i :: 0 <= i < 6 ==>
              RendersFace(r.shadowTransforms[i], FaceAt(i), light, Perspective(90.0, 1.0, near, far))
    ensures r.fbo == f.fbo && r.depthCubemap == f.depthCubemap && r.faces == f.faces
  {
    var cleared := f.(shadowTransforms := []);
    cleared.(shadowTransforms := cleared.shadowTransforms
                                 + CubeFaceTransforms(light, Resolution, Resolution, near, far))
  }

  /**
    Rebuilding is idempotent, and what the vector held before never
    survives: the result depends only on the light, the planes and the
    GL objects, never on earlier matrices.
   */
  lemma CreateForgetsPreviousMatrices(f: ShadowFbo, g: ShadowFbo, light: Vec3, near: real, far: real)
    ensures CreateCubemapTransformationMatrices(CreateCubemapTransformationMatrices(f, light, near, far), light, near, far)
            == CreateCubemapTransformationMatrices(f, light, near, far)
    ensures CreateCubemapTransformationMatrices(f, light, near, far).shadowTransforms
            == CreateCubemapTransformationMatrices(g, light, near, far).shadowTransforms
  {
  }

  /** `_shader.setMat4("shadowMatrices[" + slot + "]", value)` */
  datatype Upload = Upload(slot: nat, value: ViewProjection)

  /** What `bindFBO` does before the scene is drawn into the cube map. */
  datatype DepthPassSetup = DepthPassSetup(viewport: Viewport, framebuffer: nat, clearDepth: bool,
                                           uploads: seq<Upload>)

  /** Uploads `ts[0..6]` to the slots `0 .. 5`. */
  function UploadFaceMatrices(ts: seq<ViewProjection>): (r: seq<Upload>)
    requires |ts| >= 6
    ensures |r| == 6
    ensures forall i :: 0 <= i < 6 ==> r[i].slot == i && r[i].value == ts[i]
  {
    seq(6, i requires 0 <= i < 6 => Upload(i, ts[i]))
  }

  /**
    `bindFBO`: viewport `Resolution` x `Resolution`, bind the framebuffer,
    clear depth only, upload the six matrices.  Indexing the vector needs
    at least six entries, so the matrices must have been created first.
   */
  function BindFbo(f: ShadowFbo): (r: DepthPassSetup)
    requires |f.shadowTransforms| >= 6
    ensures r.viewport == Viewport(0, 0, Resolution, Resolution)
    ensures r.framebuffer == f.fbo && r.clearDepth
    ensures |r.uploads| == 6
    ensures forall i :: 0 <= i < 6 ==> r.uploads[i] == Upload(i, f.shadowTransforms[i])
  {
    DepthPassSetup(Viewport(0, 0, Resolution, Resolution), f.fbo, true,
                   UploadFaceMatrices(f.shadowTransforms))
  }

  /**
    Creating then binding uploads, to slot `i`, the matrix of face `i` seen
    from the current light, whatever matrices existed before.
   */
  lemma CreateThenBind(f: ShadowFbo, light: Vec3, near: real, far: real, i: nat)
    requires i < 6
    ensures BindFbo(CreateCubemapTransformationMatrices(f, light, near, far)).uploads[i].slot == i
    ensures RendersFace(BindFbo(CreateCubemapTransformationMatrices(f, light, near, far)).uploads[i].value,
                        FaceAt(i), light, Perspective(90.0, 1.0, near, far))
  {
  }
}

=== FILE: Transforms.dfy ===
/**
  The `Transform` component every placed object inherits: a position, a
  scale and a rotation, and the model matrix built from them.  The model
  matrix is `translate(identity, position)` followed by `scale(., scale)`;
  the rotation is stored but never used.
 */
module Transforms {
  import opened Vectors
  import opened Matrices

  datatype Transform = Transform(position: Vec3, scale: Vec3, rotation: Vec3)

  /**
    A freshly constructed component: position `vec3(0)` and scale `vec3(1)`.
    The rotation field has no initialiser in the class, so its starting
    value is left to the caller.
   */
  function Fresh(rotation: Vec3): (t: Transform)
    ensures GetPos(t) == Zero && GetScale(t) == One && GetRotation(t) == rotation
  {
    Transform(Zero, One, rotation)
  }

  /** A fresh component places its object unchanged: its model matrix is the identity. */
  lemma FreshModelIsIdentity(rotation: Vec3)
    ensures GetModel(Fresh(rotation)) == Identity
  {
    IdentityModel(Fresh(rotation));
  }

  function SetPos(t: Transform, p: Vec3): (r: Transform)
    ensures GetPos(r) == p
    ensures GetScale(r) == GetScale(t) && GetRotation(r) == GetRotation(t)
  {
    t.(position := p)
  }

  function SetScale(t: Transform, s: Vec3): (r: Transform)
    ensures GetScale(r) == s
    ensures GetPos(r) == GetPos(t) && GetRotation(r) == GetRotation(t)
  {
    t.(scale := s)
  }

  function SetRotation(t: Transform, a: Vec3): (r: Transform)
    ensures GetRotation(r) == a
    ensures GetPos(r) == GetPos(t) && GetScale(r) == GetScale(t)
    ensures GetModel(r) == GetModel(t)
  {
    t.(rotation := a)
  }

  function GetPos(t: Transform): Vec3 { t.position }

  function GetScale(t: Transform): Vec3 { t.scale }

  function GetRotation(t: Transform): Vec3 { t.rotation }

  /** `getModel`: identity, then translate by the position, then scale. */
  function GetModel(t: Transform): Mat4 {
    Scale(Translate(Identity, t.position), t.scale)
  }

  /** The model matrix is the product T(position) * S(scale); rotation plays no part. */
  lemma ModelIsTranslateThenScale(t: Transform)
    ensures GetModel(t) == Mul(Mul(Identity, TranslationMatrix(t.position)), ScaleMatrix(t.scale))
  {
    TranslateIsProduct(Identity, t.position);
    ScaleIsProduct(Translate(Identity, t.position), t.scale);
  }

  /**
    The model matrix sends a local point `x` to `position + scale * x`
    (component-wise): the object is scaled about its own origin and then
    placed at `position`.
   */
  lemma ModelMapsPoint(t: Transform, x: Vec3)
    ensures Apply(GetModel(t), Point(x)) == Point(Add(t.position, Hadamard(t.scale, x)))
  {
    ModelForm(t);
  }

  /** The entries of the model matrix: the scale on the diagonal, the position in the last column. */
  lemma ModelForm(t: Transform)
    ensures GetModel(t) == Mat4(Vec4(t.scale.x, 0.0, 0.0, 0.0), Vec4(0.0, t.scale.y, 0.0, 0.0),
                                Vec4(0.0, 0.0, t.scale.z, 0.0), Point(t.position))
  {
    var tr := Translate(Identity, t.position);
    assert tr.c3 == Point(t.position);
  }

  /**
    The origin of the object lands on `position` whatever the scale: the
    translation part of the model matrix is exactly the position.
   */
  lemma ModelOrigin(t: Transform)
    ensures Apply(GetModel(t), Point(Zero)) == Point(t.position)
    ensures GetModel(t).c3 == Point(t.position)
  {
    var m := GetModel(t);
    assert m.c3 == Point(t.position) by {
      ModelForm(t);
    }
    assert Point(Zero) == Vec4(0.0, 0.0, 0.0, 1.0);
    ApplyBasis(m);
  }

  /** With unit scale and zero position the model matrix is the identity. */
  lemma IdentityModel(t: Transform)
    requires t.position == Zero && t.scale == One
    ensures GetModel(t) == Identity
  {
    ModelForm(t);
  }
}

=== FILE: Vectors.dfy ===
/**
  Three-component vectors over `real`, standing in for `glm::vec3`.
  Floating-point rounding is not modelled: every operation is exact.
 */
module Vectors {

  datatype Vec3 = Vec3(x: real, y: real, z: real)

  /** `glm::vec3(0.0f)` */
  const Zero := Vec3(0.0, 0.0, 0.0)

  /** `glm::vec3(1.0f)` */
  const One := Vec3(1.0, 1.0, 1.0)

  function Add(a: Vec3, b: Vec3): Vec3 {
    Vec3(a.x + b.x, a.y + b.y, a.z + b.z)
  }

  function Sub(a: Vec3, b: Vec3): Vec3 {
    Vec3(a.x - b.x, a.y - b.y, a.z - b.z)
  }

  /** Multiplication by a scalar, `v * k`. */
  function Times(v: Vec3, k: real): Vec3 {
    Vec3(v.x * k, v.y * k, v.z * k)
  }

  /** Component-wise product. */
  function Hadamard(a: Vec3, b: Vec3): Vec3 {
    Vec3(a.x * b.x, a.y * b.y, a.z * b.z)
  }

  function Dot(a: Vec3, b: Vec3): real {
    a.x * b.x + a.y * b.y + a.z * b.z
  }

  function Cross(a: Vec3, b: Vec3): Vec3 {
    Vec3(a.y * b.z - a.z * b.y, a.z * b.x - a.x * b.z, a.x * b.y - a.y * b.x)
  }

  function Neg(v: Vec3): Vec3 {
    Vec3(-v.x, -v.y, -v.z)
  }

  /** Subtracting what was added gives back the starting point. */
  lemma AddSubCancel(a: Vec3, d: Vec3)
    ensures Sub(Add(a, d), d) == a
    ensures Add(Sub(a, d), d) == a
  {
  }
}

=== FILE: Views.dfy ===
/**
  Abstract stand-ins for the matrices built by `glm::perspective` and
  `glm::lookAt`.  Their numeric contents (trigonometry, normalisation) are
  not modelled: a matrix is represented by the arguments it was built from,
  so equal arguments give equal matrices.
 */
module Views {
  import opened Vectors

  /**
    `glm::perspective(glm::radians(fovDegrees), aspect, near, far)`.  The
    field of view is recorded in degrees, before the conversion to radians.
   */
  datatype Perspective = Perspective(fovDegrees: real, aspect: real, near: real, far: real)

  /** `glm::lookAt(eye, center, up)` */
  datatype LookAt = LookAt(eye: Vec3, center: Vec3, up: Vec3)

  /** The product `projection * view`. */
  datatype ViewProjection = ViewProjection(projection: Perspective, view: LookAt)

  /** The direction a view looks along, `center - eye`. */
  function LookDirection(v: LookAt): Vec3 {
    Sub(v.center, v.eye)
  }

  /**
    `glm::mat4(glm::mat3(view))`: the view with its translation removed.
    Only a view's eye position contributes to that translation, so the
    stripped view remembers the look direction and up vector and forgets
    the eye.
   */
  datatype RotationOnly = RotationOnly(direction: Vec3, up: Vec3)

  function StripEye(v: LookAt): RotationOnly {
    RotationOnly(LookDirection(v), v.up)
  }

  /**
    Moving eye and target together by any offset leaves the stripped view
    unchanged.  This is the `lookAt` side of the matrix fact
    `Matrices.StripTranslationIgnoresTranslation`.
   */
  lemma StripEyeIgnoresTranslation(v: LookAt, d: Vec3)
    ensures StripEye(LookAt(Add(v.eye, d), Add(v.center, d), v.up)) == StripEye(v)
  {
  }
}
